=== FILE: README.md ===
# Theia policy recommendation and ClickHouse migration logic, in Dafny

This project models the sequential decision logic of six pieces of Theia, the
flow-visibility companion of Antrea:

- **The ClickHouse data-schema migration job** (`Migration`). It checks the
  migrator lists against the version table and connects with the credentials
  from the environment. It then resolves the stored data version, including
  the legacy fallback to v0.1.0 when the version table is missing and `flows`
  exists. It picks the upgrade or downgrade migrators from the two version
  indices and writes the target version. A run is a pure function from the
  migration table, the environment and the database's answers to a trace:
  the count-mismatch log lines, the migrators invoked, the version write, and
  how the run ended.
- **The ClickHouse storage monitor, as its tests pin it down** (`Monitor`):
  - the parsing of size strings;
  - the free-space trigger;
  - the delete offset;
  - the statement sequence of one monitoring round, including its SQL text
    and its effect on the tables.
- **`theiactl policyreco start`** (`StartJob`, with the quantity pattern in
  `Quantity`):
  - the flag checks, in the command's order;
  - the argument list for the recommendation job, which parses back to its
    parameters;
  - the SparkApplication's name and resources.
- **`theiactl policyreco check`** (`CheckJob`):
  - the completed-stage count and the integer percentage;
  - the `": c/n (p%) stages completed"` suffix, which parses back to its
    three numbers;
  - the application-count and stage-count errors;
  - appending the suffix only while the trimmed state is RUNNING.
- **`theiactl policyreco result`** (`ResultJob`): the ClickHouse Service port,
  the secret, the default endpoint, the data source name and the error path
  of each step.
- **The shared command helpers** (`ClusterUtils`):
  - the pre-flight pod checks;
  - last-"tcp"-wins port selection, as a function and as the command's
    scanning loop;
  - the data source name and the recovery of the credentials from it;
  - the secret-then-poll connection;
  - `ConstStrToPointer`.

Shared modules hold the rest: `Results` (Option, Result, Status), `Text`
(prefix scans, Go's `strings.TrimSpace`), `Decimal` (decimal rendering and
parsing with round trips) and `Retry` (`wait.PollImmediate` as the first
attempt that stops, or a timeout).

The cluster, the database, HTTP and subprocesses are not executed. Their
answers are inputs:

- a pod listing is `None` or a count;
- a Service is `None` or its port list;
- a Secret is `None` or its data map;
- a poll is the finite sequence of attempt outcomes made before its timeout;
- the time, JSON, UUID and URL parsers are validity predicates.

Where the code departs from what its comments and tests lead one to
expect, the model follows the code:

- The downgrade branch of the migration job invokes no migrator. The loop
  starts at the target index minus one and runs while the index is at least
  the data index, which never holds. The evidently intended mirror range is
  modelled separately (see Findings).
- A wrong migrator count is only logged, and the run goes on. Its outcome
  stays the same only while every index the run uses is inside both lists.
  An upgrading list too short for the upgrade makes the loop index past its
  end. That is a Go panic, modelled as the `MigratorOutOfRange` exit.
- `getDataVersion` never returns "not found" without an error. A missing version table always
  leads to the `flows` poll, which yields v0.1.0 or a timeout, so the
  "No data schema exists" exit cannot be reached (see Findings).
- `PolicyRecoPreCheck` discards the ClickHouse pod check. Its outcome depends
  on the Spark Operator listing alone.

## Model

| member | source | states |
|---|---|---|
| Migration.MismatchLogs | plugins/clickhouse-migration/main.go:64-70 | a log line for a migrator list exactly when its length differs from len(versionToIndex)-1, carrying that list's length; at most one line per list, the upgrading one first; nothing else is logged |
| Migration.ShippedPlanIsConsistent | plugins/clickhouse-migration/main.go:32-41 | the shipped table (two versions, one migrator each way) logs no mismatch |
| Migration.ConnectLoop | plugins/clickhouse-migration/main.go:178-210 | missing-environment error exactly when a credential or DB_URL is empty; success exactly when they are set and some attempt connects; the data source name starts with DB_URL |
| Migration.TheiaVersion | plugins/clickhouse-migration/main.go:169-175 | THEIA_VERSION is returned exactly when it is non-empty |
| Migration.GetDataVersion | plugins/clickhouse-migration/main.go:133-167 | the version poll times out exactly when every read is transient; the first read that returns a version other than "not found" is returned as-is; a version other than v0.1.0 is a value read from the table; "not found" is never returned without an error, since the model's result is then an `Err` |
| Migration.MissingVersionTableFallsBack | plugins/clickhouse-migration/main.go:136-165 | after a missing-table error, a successful flows count gives v0.1.0 and a failing flows poll gives a timeout error |
| Migration.UpgradeSteps | plugins/clickhouse-migration/main.go:100-104 | the upgrade loop invokes migrators i..hi-1 in increasing order, and nothing when i >= hi; with a list of count < hi migrators it invokes i..count-1 and then aborts at index count |
| Migration.DowngradeSteps | plugins/clickhouse-migration/main.go:105-109 | the downgrade loop invokes migrators i down to lo, and nothing when i < lo; a start index past the end of the list aborts at once |
| Migration.MigrateSteps | plugins/clickhouse-migration/main.go:100-112 | an older data version runs the upgrade loop from the data index to the target index, a newer one the downgrade loop (from target-1 up to the data index as written, from data-1 down to the target when mirrored), equal indices run nothing; only upgrade or downgrade migrators are invoked |
| Migration.Drive | plugins/clickhouse-migration/main.go:71-116 | only the last action can be a version write, it writes THEIA_VERSION, and the run finishes exactly when it ends with that write |
| Migration.WithLogs | plugins/clickhouse-migration/main.go:64-70 | the mismatch log lines come first and the rest of the run follows unchanged |
| Migration.Run | plugins/clickhouse-migration/main.go:63-117 | a run opens with its mismatch log lines and writes at most once, at the end, the target version |
| Migration.MissingCredentialsStopFirst | plugins/clickhouse-migration/main.go:71-75 | missing credentials end the run with only the log lines, whatever the database would answer |
| Migration.NotFoundExits | plugins/clickhouse-migration/main.go:81-84 | a data version of "not found" ends the run with no migrator and no write |
| Migration.MissingTheiaVersionExits | plugins/clickhouse-migration/main.go:85-89 | an empty THEIA_VERSION ends the run before any migrator or write |
| Migration.UnrecognisedVersionExits | plugins/clickhouse-migration/main.go:90-99 | a data or target version missing from the table ends the run before any migrator or write, with the data version checked first |
| Migration.UpgradeInvokesRangeInOrder | plugins/clickhouse-migration/main.go:100-104 | on upgrade, exactly migrators dataIndex..theiaIndex-1 in increasing order, then the version write |
| Migration.ShortUpgradeListAborts | plugins/clickhouse-migration/main.go:100-104 | an upgrading list shorter than the target index runs the migrators it has from the data index on, then ends in `MigratorOutOfRange` at the list's length, after the log lines and with no version write |
| Migration.DowngradeInvokesNothing | plugins/clickhouse-migration/main.go:105-109 | on downgrade as written, no migrator at all, then the version write |
| Migration.SameVersionOnlyRewrites | plugins/clickhouse-migration/main.go:110-116 | equal indices invoke nothing and still write the version |
| Migration.MismatchIsOnlyLogged | plugins/clickhouse-migration/main.go:64-70 | two tables differing only in migrator counts (covering the indices used) give the same actions after the logs and the same exit |
| Migration.ShippedUpgradeScenario | plugins/clickhouse-migration/main.go:100-116 | v0.1.0 data under a v0.2.0 binary runs migrator 0 and writes v0.2.0 |
| Migration.DowngradeSkipsMigrator | plugins/clickhouse-migration/main.go:105-109 | v0.2.0 data under a v0.1.0 binary writes v0.1.0 without running migrateV020ToV010 |
| Migration.EmptySchemaReportsReadFailure | plugins/clickhouse-migration/main.go:150-165 | with neither table present the run ends in a data-version error, not the "no data schema" exit |
| Migration.NoDataSchemaIsUnreachable | plugins/clickhouse-migration/main.go:81-84 | no run ends in the "no data schema" exit |
| Migration.RunCorrected | plugins/clickhouse-migration/main.go:63-117 | the corrected run keeps the log-first, write-at-end shape |
| Migration.CorrectedDowngradeInvokesMirrorRange | plugins/clickhouse-migration/main.go:105-109 | corrected downgrade invokes migrators dataIndex-1 down to theiaIndex, then writes |
| Migration.CorrectedEmptySchemaExits | plugins/clickhouse-migration/main.go:150-165 | corrected legacy check: with neither table present the run ends in the "no data schema" exit |
| Migration.CorrectedShippedDowngrade | plugins/clickhouse-migration/main.go:39-41 | the shipped downgrade under the corrected walk runs migrateV020ToV010, then writes v0.1.0 |
| Monitor.ParseSize | plugins/clickhouse-monitor/main_test.go:86-94 | a size that parses is non-negative; a string not opening with a digit is an error |
| Monitor.ParseSizeOfWhole | plugins/clickhouse-monitor/main_test.go:86-94 | any whole number followed by any unit parses to that number times the unit's multiplier |
| Monitor.ParseSizeBinaryTestValue | plugins/clickhouse-monitor/main_test.go:87-89 | "500Mi" is 500·1024² bytes |
| Monitor.ParseSizeDecimalTestValue | plugins/clickhouse-monitor/main_test.go:91-93 | "2.5G" is 2.5·1000³ bytes |
| Monitor.ShouldDeleteIsDownwardClosed | plugins/clickhouse-monitor/main_test.go:36-53 | less free space never switches deletion off, and free space equal to threshold·allocated does not trigger it |
| Monitor.DeleteOffset | plugins/clickhouse-monitor/main_test.go:38-43 | the offset is row count·delete percentage rounded down, and at most the row count |
| Monitor.MonitorMemory | plugins/clickhouse-monitor/main_test.go:28-84 | a round opens with the disk and parts queries, stops there when deletion is not due, and otherwise counts the base table next |
| Monitor.RoundDeletesEveryTableOnce | plugins/clickhouse-monitor/main_test.go:44-47 | a deleting round issues one delete per table, base table first, then the views in order, all with the time read at the offset; other rounds issue no delete |
| Monitor.RoundKeepsTablesConsistent | plugins/clickhouse-monitor/main_test.go:44-50 | after a deleting round, every listed table holds exactly its rows at or after the one cutoff, and every other table is unchanged |
| Monitor.MonitorWithDeletionScenario | plugins/clickhouse-monitor/main_test.go:28-61 | 4 of 10 bytes free and 10 rows give the eight expected SQL statements in order, with OFFSET 5 |
| Monitor.MonitorWithoutDeletionScenario | plugins/clickhouse-monitor/main_test.go:63-84 | 6 of 10 bytes free issues only the disk and parts queries |
| Quantity.QuantityEquivalence | pkg/theiactl/commands/start.go:34 | the recogniser accepts exactly the strings the pattern's language holds, in both directions |
| Quantity.DefaultQuantitiesMatch | pkg/theiactl/commands/start.go:354-377 | the defaults "200m" and "512M" match and the empty string does not |
| StartJob.CheckFlags | pkg/theiactl/commands/start.go:71-197 | each flag error exactly when every earlier check passes and its own fails; pass exactly when all hold; only flag errors |
| StartJob.CheckQuantities | pkg/theiactl/commands/start.go:159-197 | the first resource string that is not a quantity names the error, in the command's order |
| StartJob.SerializeArgs | pkg/theiactl/commands/start.go:78-214 | the argument list is --type, --limit and --option with their values, then only the filters present, then the rm_labels, to_services and id pairs; each value follows its flag, so the length is 12 plus two per filter |
| StartJob.ParseBoolOfBool | pkg/theiactl/commands/start.go:142 | booleans render as "true"/"false" and read back |
| StartJob.ParseTailOfTail | pkg/theiactl/commands/start.go:138-148 | the rm_labels, to_services and id pairs read back |
| StartJob.ArgsRoundTrip | pkg/theiactl/commands/start.go:78-148 | the argument list parses back to exactly the job's parameters, with absent filters absent |
| StartJob.JobName | pkg/theiactl/commands/start.go:221 | the application name is "policy-reco-" followed by the id |
| StartJob.Start | pkg/theiactl/commands/start.go:67-288 | flag errors pass through first; the client error exactly when the flags pass and no client exists; success exactly when every check and the POST pass; the job carries the name, exactly the serialised argument list (which parses back to the parameters), and the given resources |
| StartJob.DefaultsStart | pkg/theiactl/commands/start.go:291-377 | with every flag at its default the job gets the mandatory arguments only and the default resources |
| CheckJob.CompletedBounds | pkg/theiactl/commands/check.go:124-129 | the count is at most the total, equals it exactly when every stage is done, and is zero exactly when none is |
| CheckJob.CountCompletedStages | pkg/theiactl/commands/check.go:124-129 | the counting loop counts the COMPLETE or SKIPPED stages |
| CheckJob.Percentage | pkg/theiactl/commands/check.go:130 | the percentage is the whole part of completed·100/total, at most 100, and 100 exactly when all are done |
| CheckJob.ProgressRoundTrip | pkg/theiactl/commands/check.go:130 | the suffix ": c/n (p%) stages completed" reads back to its three numbers |
| CheckJob.GetProgress | pkg/theiactl/commands/check.go:100-131 | request failure and app count other than 1 are errors; success exactly with one app and at least one stage; the text is exactly the rendered suffix ": c/n (p%) stages completed" (no leading zeros), where n is the stage count, c the completed count and p the floor of c*100/n, which is at most 100 and 100 exactly when every stage is done |
| CheckJob.Check | pkg/theiactl/commands/check.go:44-97 | success exactly with a valid id, a client, a passing pre-check and a state, and, when the trimmed state is RUNNING, a port forward and a progress report; the report is the trimmed state, followed by the progress suffix exactly when that state is RUNNING |
| CheckJob.NotRunningIgnoresProgress | pkg/theiactl/commands/check.go:80-95 | a state other than RUNNING is reported as is, whatever the port forward and the Spark UI would answer |
| ClusterUtils.CheckClickHousePod | pkg/theiactl/commands/utils.go:59-71 | passes exactly when the listing succeeds with at least one pod |
| ClusterUtils.PolicyRecoPreCheck | pkg/theiactl/commands/utils.go:44-57 | passes exactly when the Spark Operator listing succeeds with a pod; never fails with a ClickHouse error |
| ClusterUtils.LastTcpPortIsLast | pkg/theiactl/commands/utils.go:79-83 | the choice is the port of the "tcp" entry no later "tcp" entry follows, and 0 with no "tcp" entry |
| ClusterUtils.SelectTcpPort | pkg/theiactl/commands/utils.go:79-83 | the overwriting scan ends with the last "tcp" entry's port |
| ClusterUtils.OtherPortsIgnored | pkg/theiactl/commands/utils.go:79-83 | dropping every entry not named "tcp" does not change the choice |
| ClusterUtils.GetServicePort | pkg/theiactl/commands/utils.go:73-88 | a failed lookup and a zero choice are errors; otherwise the port of the last "tcp" entry |
| ClusterUtils.SplitDsn | pkg/theiactl/commands/utils.go:111 | credentials read out of a data source name rebuild it exactly |
| ClusterUtils.DsnRoundTrip | pkg/theiactl/commands/utils.go:111 | a user name without "&" and any password are read back from the data source name |
| ClusterUtils.ConnectClickHouse | pkg/theiactl/commands/utils.go:91-132 | a missing secret or key is an error before any attempt; success exactly when both keys exist and some attempt connects; the data source name carries the secret's values |
| ClusterUtils.ConstStrToPointer | pkg/theiactl/commands/utils.go:134-136 | the returned cell is freshly allocated and holds the argument |
| ResultJob.GetClickHouseServicePort | pkg/theiactl/commands/result.go:110-125 | success exactly when the Service exists and its last "tcp" port is non-zero, and then that port |
| ResultJob.GetClickHouseSecret | pkg/theiactl/commands/result.go:127-141 | success exactly when both keys exist, with their values unchanged; username is checked first |
| ResultJob.DefaultEndpointPort | pkg/theiactl/commands/result.go:88 | the port reads back from "tcp://localhost:<port>" |
| ResultJob.ResolveEndpoint | pkg/theiactl/commands/result.go:76-89 | a given endpoint is kept; an empty one succeeds exactly when the Service has a non-zero last "tcp" port and the port forward starts, and becomes tcp://localhost:<port>; a failed port lookup and a failed port forward give their own errors |
| ResultJob.FetchResult | pkg/theiactl/commands/result.go:43-108 | id and endpoint errors first; success exactly when every step succeeds; the data source name is built from the resolved endpoint and the secret's values, and the stored yamls are returned |

## Left out

- Kubernetes, SQL, HTTP and `kubectl` calls are not executed. Their outcomes are inputs: listings, Services, Secrets, poll attempts, the SparkApplication state, the Spark UI answers and the `recommendations` rows.
- Retry intervals and timeouts are not modelled. A poll is the finite sequence of attempts made before its timeout.
- `time.Parse`, `json.Unmarshal`, `uuid.Parse` and `url.ParseRequestURI` are validity predicates, because their grammars belong to Go's standard library.
- Cobra flag-parsing errors are not modelled. Flag values arrive typed.
- The monitor's implementation file is not part of this model. The `parseSize` grammar (a decimal number with an optional K..E or Ki..Ei unit) is this model's assumption, chosen to agree with the two test values. Its result is an exact real, with no claim about float rounding beyond the two tested values.
- Monitor.MonitorMemory: skips the offset query and every delete when the offset is 0. This is this model's assumption, since the monitor's implementation file is not part of this model and neither test has a zero offset.
- The monitor's polling loop, skip rounds and environment parsing are not part of this model.
- Monitor time formatting is a parameter, because the layout constant lives in the file that is not part of this model.
- Migrator functions return nothing the run looks at, so their errors are not inputs.
- Log message texts are reduced to which line is logged.
- Secret values are modelled as strings, character for byte.
- Ports and `executor_instances` are unbounded integers, not int32.
- A stage whose status is absent or not a string is `None`. An application id is taken as a string, and a body that does not decode is the empty list.
- The SparkApplication's image, pull policy, main file, labels, service account and secret references are fixed manifest data and are left out. The model keeps its name, arguments and resources.
- The port-forward process's lifetime (`defer Kill`) is not modelled.
- `policyreco.go` (command registration) and `test/e2e/upgrade_test.go` (cluster orchestration) are not part of this model.

## Findings

| source | as written | input that shows it | evidently intended | confidence | as-written member | corrected member |
|---|---|---|---|---|---|---|
| plugins/clickhouse-migration/main.go:106 | the downgrade loop starts at theiaIndex-1 and runs while i >= dataIndex, so it never runs when dataIndex > theiaIndex | stored v0.2.0 (index 1), THEIA_VERSION v0.1.0 (index 0): migrateV020ToV010 is skipped and v0.1.0 is written | invoke downgradingMigrators[dataIndex-1] down to [theiaIndex] | not executed | Migration.DowngradeSkipsMigrator | Migration.CorrectedShippedDowngrade |
| plugins/clickhouse-migration/main.go:155-164 | the flows poll retries every error, including a missing flows table, so "not found" never survives and the "No data schema exists" exit at 81-84 is unreachable | no migrate_version table and no flows table: the run ends with a flows-count timeout error | a missing flows table keeps "not found" and the run exits as "no data schema" | not executed | Migration.EmptySchemaReportsReadFailure | Migration.CorrectedEmptySchemaExits |

=== FILE: check.dfy ===
/** `theiactl policyreco check` (pkg/theiactl/commands/check.go): the job's
    state, and for a running job the fraction of its Spark stages that are
    done, read from the Spark UI through a port forward. HTTP answers
    become inputs: the application list is `None` when the request fails
    and otherwise the decoded application ids (a body that does not decode
    is the empty list); `stagesAt` answers the stages request for a URL
    with the decoded `status` field of each stage (`None` when absent or
    not a string). */
module CheckJob {
  import opened Results
  import opened Decimal
  import opened Text
  import ClusterUtils
  import StartJob

  // ---------------------------------------------------------------------
  // Completed stages

  predicate IsCompleted(status: Option<string>) {
    status == Some("COMPLETE") || status == Some("SKIPPED")
  }

  /** The number of stages whose status is COMPLETE or SKIPPED. */
  function CountCompleted(stages: seq<Option<string>>): nat {
    if |stages| == 0 then 0
    else CountCompleted(stages[..|stages| - 1]) + (if IsCompleted(stages[|stages| - 1]) then 1 else 0)
  }

  /** The count is at most the number of stages, reaches it exactly when
      every stage is done, and is zero exactly when none is. */
  lemma {:induction false} CompletedBounds(stages: seq<Option<string>>)
    ensures CountCompleted(stages) <= |stages|
    ensures CountCompleted(stages) == |stages| <==> forall i :: 0 <= i < |stages| ==> IsCompleted(stages[i])
    ensures CountCompleted(stages) == 0 <==> forall i :: 0 <= i < |stages| ==> !IsCompleted(stages[i])
  {
    if |stages| > 0 {
      var init := stages[..|stages| - 1];
      CompletedBounds(init);
      assert forall i :: 0 <= i < |init| ==> init[i] == stages[i];
    }
  }

  /** The counting loop as the command writes it. */
  method CountCompletedStages(stages: seq<Option<string>>) returns (completed: nat)
    ensures completed == CountCompleted(stages)
  {
    completed := 0;
    var i := 0;
    while i < |stages|
      invariant 0 <= i <= |stages|
      invariant completed == CountCompleted(stages[..i])
    {
      assert stages[..i + 1][..i] == stages[..i];
      if IsCompleted(stages[i]) {
        completed := completed + 1;
      }
      i := i + 1;
    }
    assert stages[..|stages|] == stages;
  }

  lemma MulCancel(a: int, b: int, n: int)
    requires n > 0 && a * n <= b * n
    ensures a <= b
  {
  }

  lemma MulCancelStrict(a: int, b: int, n: int)
    requires n > 0 && a * n < b * n
    ensures a < b
  {
  }

  lemma DivFacts(x: nat, n: nat)
    requires n > 0
    ensures (x / n) * n <= x < (x / n + 1) * n
  {
  }

  /** `completed*100/total` in integer division: the whole percentage
      rounded down, 100 exactly when every stage is done. */
  function Percentage(completed: nat, total: nat): (p: nat)
    requires 0 < total && completed <= total
    ensures p * total <= completed * 100 < (p + 1) * total
    ensures p <= 100
    ensures p == 100 <==> completed == total
  {
    var p := completed * 100 / total;
    PercentageFacts(completed, total, p);
    p
  }

  lemma PercentageFacts(completed: nat, total: nat, p: nat)
    requires 0 < total && completed <= total && p == completed * 100 / total
    ensures p * total <= completed * 100 < (p + 1) * total
    ensures p <= 100
    ensures p == 100 <==> completed == total
  {
    var x := completed * 100;
    DivFacts(x, total);
    assert x <= 100 * total;
    MulCancel(p, 100, total);
    if completed == total {
      MulCancelStrict(100, p + 1, total);
    }
    if p == 100 {
      assert 100 * total <= x;
    }
  }

  // ---------------------------------------------------------------------
  // The progress text

  const CompletedTail := "%) stages completed"

  /** `": c/n (p%) stages completed"` */
  function ProgressSuffix(completed: nat, total: nat, percent: nat): string {
    ": " + (NatToString(completed) + ("/" + (NatToString(total) + (" (" + (NatToString(percent) + CompletedTail)))))
  }

  /** A number followed by the literal `lit`; returns the number and what
      follows the literal. */
  function ReadField(s: string, lit: string): Option<(nat, string)> {
    match ReadNat(s)
    case None => None
    case Some((n, rest)) =>
      match Expect(rest, lit)
      case None => None
      case Some(after) => Some((n, after))
  }

  lemma ReadFieldOf(n: nat, lit: string, rest: string)
    requires |lit| > 0 && !IsDigit(lit[0])
    ensures ReadField(NatToString(n) + (lit + rest), lit) == Some((n, rest))
  {
    ReadNatOfNat(n, lit + rest);
    ExpectOfConcat(lit, rest);
  }

  /** Reads the three numbers back out of a progress suffix. */
  function ParseProgressSuffix(s: string): Option<(nat, nat, nat)> {
    match Expect(s, ": ")
    case None => None
    case Some(s1) =>
      match ReadField(s1, "/")
      case None => None
      case Some((completed, s2)) =>
        match ReadField(s2, " (")
        case None => None
        case Some((total, s3)) =>
          match ReadField(s3, CompletedTail)
          case None => None
          case Some((percent, s4)) =>
            if s4 == "" then Some((completed, total, percent)) else None
  }

  /** The three numbers survive the text. */
  lemma ProgressRoundTrip(completed: nat, total: nat, percent: nat)
    ensures ParseProgressSuffix(ProgressSuffix(completed, total, percent)) == Some((completed, total, percent))
  {
    var s3 := NatToString(percent) + (CompletedTail + "");
    var s2 := NatToString(total) + (" (" + s3);
    var s1 := NatToString(completed) + ("/" + s2);
    assert CompletedTail + "" == CompletedTail;
    ExpectOfConcat(": ", s1);
    ReadFieldOf(completed, "/", s2);
    ReadFieldOf(total, " (", s3);
    ReadFieldOf(percent, CompletedTail, "");
  }

  // ---------------------------------------------------------------------
  // getPolicyRecommendationProgress

  datatype ProgressError =
    | MonitoringUnavailable
    | WrongAppCount(count: nat)
    | StagesUnavailable(url: string)
    | NoStages

  const ApplicationsUrl := "http://localhost:4040/api/v1/applications"

  function StagesUrl(appId: string): string {
    ApplicationsUrl + "/" + appId + "/stages"
  }

  /** Exactly one application must be listed and it must report at least
      one stage; the result is the progress suffix for its stages. */
  function GetProgress(apps: Option<seq<string>>, stagesAt: string -> Option<seq<Option<string>>>): (r: Result<string, ProgressError>)
    ensures apps.None? ==> r == Err(MonitoringUnavailable)
    ensures apps.Some? && |apps.value| != 1 ==> r == Err(WrongAppCount(|apps.value|))
    ensures r.Ok? <==> apps.Some? && |apps.value| == 1 &&
                       stagesAt(StagesUrl(apps.value[0])).Some? && |stagesAt(StagesUrl(apps.value[0])).value| >= 1
    ensures r.Ok? ==>
              var stages := stagesAt(StagesUrl(apps.value[0])).value;
              ParseProgressSuffix(r.value).Some? &&
              var (completed, total, percent) := ParseProgressSuffix(r.value).value;
              total == |stages| && completed == CountCompleted(stages) && completed <= total &&
              percent == Percentage(completed, total) && percent <= 100 &&
              r.value == ProgressSuffix(completed, total, percent) &&
              (percent == 100 <==> forall i :: 0 <= i < |stages| ==> IsCompleted(stages[i]))
  {
    match apps
    case None => Err(MonitoringUnavailable)
    case Some(ids) =>
      if |ids| != 1 then Err(WrongAppCount(|ids|))
      else
        var url := StagesUrl(ids[0]);
        match stagesAt(url)
        case None => Err(StagesUnavailable(url))
        case Some(stages) =>
          if |stages| < 1 then Err(NoStages)
          else
            var completed := CountCompleted(stages);
            CompletedBounds(stages);
            var percent := Percentage(completed, |stages|);
            ProgressRoundTrip(completed, |stages|, percent);
            Ok(ProgressSuffix(completed, |stages|, percent))
  }

  // ---------------------------------------------------------------------
  // The command

  datatype CheckError =
    | InvalidId
    | ClientUnavailable
    | PreCheck(cause: ClusterUtils.ClusterError)
    | AppLookupFailed
    | PortForwardFailed
    | Progress(failure: ProgressError)

  /** What the command learns from outside: whether the id parses as a
      UUID, the cluster's answers (the SparkApplication's state by name,
      `None` when the GET fails), whether a port forward to a service
      starts, and the Spark UI's answers. */
  datatype CheckEnv = CheckEnv(
    validId: string -> bool,
    clientOk: bool,
    sparkOperatorPods: Option<nat>,
    clickHousePods: Option<nat>,
    appState: string -> Option<string>,
    portForward: string -> bool,
    apps: Option<seq<string>>,
    stagesAt: string -> Option<seq<Option<string>>>)

  const Running := "RUNNING"

  /** The Spark UI service of a job. */
  function UiService(id: string): string {
    "service/policy-reco-" + id + "-ui-svc"
  }

  /** The state the command reports: the trimmed application state, with
      the progress suffix appended only while the job is RUNNING. */
  function Check(id: string, env: CheckEnv): (r: Result<string, CheckError>)
    ensures !env.validId(id) ==> r == Err(InvalidId)
    ensures r.Ok? ==> env.validId(id) && env.clientOk &&
                      ClusterUtils.PolicyRecoPreCheck(env.sparkOperatorPods, env.clickHousePods).Pass? &&
                      env.appState(StartJob.JobName(id)).Some?
    ensures r.Ok? ==>
              var state := TrimSpace(env.appState(StartJob.JobName(id)).value);
              state <= r.value && (r.value == state <==> state != Running)
    ensures r.Ok? && TrimSpace(env.appState(StartJob.JobName(id)).value) == Running ==>
              ParseProgressSuffix(r.value[|Running|..]).Some?
    ensures r.Ok? <==>
              env.validId(id) && env.clientOk &&
              ClusterUtils.PolicyRecoPreCheck(env.sparkOperatorPods, env.clickHousePods).Pass? &&
              env.appState(StartJob.JobName(id)).Some? &&
              (TrimSpace(env.appState(StartJob.JobName(id)).value) != Running ||
               (env.portForward(UiService(id)) && GetProgress(env.apps, env.stagesAt).Ok?))
    ensures r.Ok? && TrimSpace(env.appState(StartJob.JobName(id)).value) == Running ==>
              r.value == Running + GetProgress(env.apps, env.stagesAt).value
    ensures r == Err(PortForwardFailed) ==>
              env.appState(StartJob.JobName(id)).Some? &&
              TrimSpace(env.appState(StartJob.JobName(id)).value) == Running && !env.portForward(UiService(id))
  {
    if !env.validId(id) then Err(InvalidId)
    else if !env.clientOk then Err(ClientUnavailable)
    else
      match ClusterUtils.PolicyRecoPreCheck(env.sparkOperatorPods, env.clickHousePods)
      case Fail(e) => Err(PreCheck(e))
      case Pass =>
        match env.appState(StartJob.JobName(id))
        case None => Err(AppLookupFailed)
        case Some(raw) =>
          var state := TrimSpace(raw);
          if state != Running then Ok(state)
          else if !env.portForward(UiService(id)) then Err(PortForwardFailed)
          else
            match GetProgress(env.apps, env.stagesAt)
            case Err(e) => Err(Progress(e))
            case Ok(suffix) =>
              assert (state + suffix)[|Running|..] == suffix;
              Ok(state + suffix)
  }

  /** A job that is not RUNNING is reported without touching the port
      forward or the Spark UI: their answers cannot change the outcome. */
  lemma NotRunningIgnoresProgress(id: string, env: CheckEnv, portForward: string -> bool,
                                  apps: Option<seq<string>>, stagesAt: string -> Option<seq<Option<string>>>)
    requires env.appState(StartJob.JobName(id)).Some?
    requires TrimSpace(env.appState(StartJob.JobName(id)).value) != Running
    ensures Check(id, env) == Check(id, env.(portForward := portForward, apps := apps, stagesAt := stagesAt))
    ensures Check(id, env).Ok? ==> Check(id, env).value == TrimSpace(env.appState(StartJob.JobName(id)).value)
  {
  }
}

=== FILE: cluster.dfy ===
/** The helpers the policy recommendation commands share
    (pkg/theiactl/commands/utils.go): the pre-flight pod checks, the choice
    of a Service's "tcp" port, the ClickHouse data source name and the
    secret-then-poll connection. Kubernetes API calls become their
    outcomes: a pod listing is `None` when the call fails and otherwise the
    number of pods found; a Service is `None` or its port list; a Secret is
    `None` or its data map. */
module ClusterUtils {
  import opened Results
  import opened Text
  import Retry

  /** One entry of a Service's `spec.ports`. */
  datatype ServicePort = ServicePort(name: string, port: int)

  datatype ClusterError =
    | SparkOperatorLookupFailed
    | SparkOperatorMissing
    | ClickHouseLookupFailed
    | ClickHouseMissing
    | ServiceLookupFailed(service: string)
    | ServicePortMissing(service: string)
    | SecretLookupFailed
    | UsernameMissing
    | PasswordMissing
    | ConnectTimeout

  const TcpPortName := "tcp"

  // ---------------------------------------------------------------------
  // Pre-flight checks

  /** The ClickHouse pods (label `app=clickhouse`) must be listable and at
      least one must exist. */
  function CheckClickHousePod(pods: Option<nat>): (r: Status<ClusterError>)
    ensures r.Pass? <==> pods.Some? && pods.value >= 1
    ensures pods.None? ==> r == Fail(ClickHouseLookupFailed)
    ensures pods == Some(0) ==> r == Fail(ClickHouseMissing)
  {
    match pods
    case None => Fail(ClickHouseLookupFailed)
    case Some(n) => if n < 1 then Fail(ClickHouseMissing) else Pass
  }

  /** The Spark Operator pod must be listable and present. The ClickHouse
      check runs afterwards but its verdict is dropped, so the outcome
      depends on the Spark Operator listing alone. */
  function PolicyRecoPreCheck(sparkOperatorPods: Option<nat>, clickHousePods: Option<nat>): (r: Status<ClusterError>)
    ensures r.Pass? <==> sparkOperatorPods.Some? && sparkOperatorPods.value >= 1
    ensures sparkOperatorPods.None? ==> r == Fail(SparkOperatorLookupFailed)
    ensures sparkOperatorPods == Some(0) ==> r == Fail(SparkOperatorMissing)
    ensures r.Fail? ==> !r.error.ClickHouseLookupFailed? && !r.error.ClickHouseMissing?
  {
    match sparkOperatorPods
    case None => Fail(SparkOperatorLookupFailed)
    case Some(n) =>
      if n < 1 then Fail(SparkOperatorMissing)
      else
        var _ := CheckClickHousePod(clickHousePods);
        Pass
  }

  // ---------------------------------------------------------------------
  // Service port selection

  /** No entry after index `i` is named "tcp". */
  ghost predicate LastTcpAt(ports: seq<ServicePort>, i: int) {
    0 <= i < |ports| && ports[i].name == TcpPortName &&
    forall j :: i < j < |ports| ==> ports[j].name != TcpPortName
  }

  /** The port of the last entry named "tcp", or 0 when there is none:
      later entries overwrite earlier ones. */
  function LastTcpPort(ports: seq<ServicePort>): int {
    if |ports| == 0 then 0
    else if ports[|ports| - 1].name == TcpPortName then ports[|ports| - 1].port
    else LastTcpPort(ports[..|ports| - 1])
  }

  /** The choice is the port of the entry no later "tcp" entry follows,
      and 0 exactly when no entry is named "tcp" or that port is 0. */
  lemma {:induction false} LastTcpPortIsLast(ports: seq<ServicePort>)
    ensures (forall i :: 0 <= i < |ports| ==> ports[i].name != TcpPortName) ==> LastTcpPort(ports) == 0
    ensures forall i :: LastTcpAt(ports, i) ==> LastTcpPort(ports) == ports[i].port
  {
    if |ports| > 0 {
      var init := ports[..|ports| - 1];
      LastTcpPortIsLast(init);
      assert forall i :: 0 <= i < |init| ==> init[i] == ports[i];
    }
  }

  /** The scan as the command writes it: one forward pass that overwrites
      the candidate at every "tcp" entry. */
  method SelectTcpPort(ports: seq<ServicePort>) returns (port: int)
    ensures port == LastTcpPort(ports)
  {
    port := 0;
    var i := 0;
    while i < |ports|
      invariant 0 <= i <= |ports|
      invariant port == LastTcpPort(ports[..i])
    {
      assert ports[..i + 1][..i] == ports[..i];
      if ports[i].name == TcpPortName {
        port := ports[i].port;
      }
      i := i + 1;
    }
    assert ports[..|ports|] == ports;
  }

  /** The entries named "tcp", in order. */
  function TcpEntries(ports: seq<ServicePort>): (r: seq<ServicePort>)
    ensures |r| <= |ports|
    ensures forall k :: 0 <= k < |r| ==> r[k].name == TcpPortName && r[k] in ports
  {
    if |ports| == 0 then []
    else
      var rest := TcpEntries(ports[..|ports| - 1]);
      if ports[|ports| - 1].name == TcpPortName then rest + [ports[|ports| - 1]] else rest
  }

  /** Entries with any other name never influence the choice. */
  lemma {:induction false} OtherPortsIgnored(ports: seq<ServicePort>)
    ensures LastTcpPort(ports) == LastTcpPort(TcpEntries(ports))
  {
    if |ports| > 0 {
      var init := ports[..|ports| - 1];
      OtherPortsIgnored(init);
      var rest := TcpEntries(init);
      if ports[|ports| - 1].name == TcpPortName {
        assert (rest + [ports[|ports| - 1]])[..|rest|] == rest;
      }
    }
  }

  /** getServicePort: a failed lookup and a missing (or zero) "tcp" port
      are both errors; otherwise the last "tcp" entry's port. */
  function GetServicePort(service: Option<seq<ServicePort>>, name: string): (r: Result<int, ClusterError>)
    ensures service.None? ==> r == Err(ServiceLookupFailed(name))
    ensures service.Some? ==> (r.Ok? <==> LastTcpPort(service.value) != 0)
    ensures r.Ok? ==> r.value != 0 && LastTcpAt(service.value, IndexOfLastTcp(service.value)) &&
                      r.value == service.value[IndexOfLastTcp(service.value)].port
    ensures r.Err? && service.Some? ==> r == Err(ServicePortMissing(name))
  {
    match service
    case None => Err(ServiceLookupFailed(name))
    case Some(ports) =>
      var port := LastTcpPort(ports);
      if port == 0 then Err(ServicePortMissing(name))
      else
        LastTcpIndex(ports);
        Ok(port)
  }

  /** The position of the last "tcp" entry, or -1. */
  function IndexOfLastTcp(ports: seq<ServicePort>): (i: int)
    ensures -1 <= i < |ports|
    ensures i >= 0 ==> LastTcpAt(ports, i)
    ensures i == -1 ==> forall j :: 0 <= j < |ports| ==> ports[j].name != TcpPortName
  {
    if |ports| == 0 then -1
    else if ports[|ports| - 1].name == TcpPortName then |ports| - 1
    else IndexOfLastTcp(ports[..|ports| - 1])
  }

  /** A non-zero choice is the port of the last "tcp" entry. */
  lemma LastTcpIndex(ports: seq<ServicePort>)
    requires LastTcpPort(ports) != 0
    ensures IndexOfLastTcp(ports) >= 0
    ensures LastTcpPort(ports) == ports[IndexOfLastTcp(ports)].port
  {
    LastTcpPortIsLast(ports);
  }

  // ---------------------------------------------------------------------
  // Data source name

  const DsnUserKey := "?debug=false&username="
  const DsnPasswordKey := "&password="

  /** `<url>?debug=false&username=<u>&password=<p>`. */
  function Dsn(url: string, username: string, password: string): string {
    url + DsnUserKey + username + DsnPasswordKey + password
  }

  lemma DsnShape(url: string, username: string, password: string)
    ensures Dsn(url, username, password) == (url + DsnUserKey) + (username + (DsnPasswordKey + password))
  {
  }

  predicate NotAmpersand(c: char) {
    c != '&'
  }

  /** Reads the credentials back out of a data source name built on `url`:
      the user name runs to the first `&`, the password is the rest. */
  function SplitDsn(url: string, dsn: string): (r: Option<(string, string)>)
    ensures r.Some? ==> Dsn(url, r.value.0, r.value.1) == dsn
  {
    match Expect(dsn, url + DsnUserKey)
    case None => None
    case Some(rest) =>
      var k := Span(rest, NotAmpersand);
      match Expect(rest[k..], DsnPasswordKey)
      case None => None
      case Some(password) =>
        var username := rest[..k];
        assert rest == username + rest[k..];
        DsnShape(url, username, password);
        Some((username, password))
  }

  /** A user name without `&` and any password survive the data source name. */
  lemma DsnRoundTrip(url: string, username: string, password: string)
    requires AllSat(username, NotAmpersand)
    ensures SplitDsn(url, Dsn(url, username, password)) == Some((username, password))
  {
    var dsn := Dsn(url, username, password);
    var rest := username + DsnPasswordKey + password;
    assert dsn == (url + DsnUserKey) + rest;
    assert Expect(dsn, url + DsnUserKey) == Some(rest);
    assert (DsnPasswordKey + password)[0] == '&';
    assert username + DsnPasswordKey + password == username + (DsnPasswordKey + password);
    SpanOfConcat(username, DsnPasswordKey + password, NotAmpersand);
    assert rest[|username|..] == DsnPasswordKey + password;
    assert rest[..|username|] == username;
  }

  // ---------------------------------------------------------------------
  // Connection

  /** ConnectClickHouse: the Secret must exist and hold both keys before any
      connection is attempted; then the open-and-ping poll either succeeds
      on some attempt or times out. The result is the data source name of
      the connection opened. */
  function ConnectClickHouse(secret: Option<map<string, string>>, url: string, attempts: seq<bool>): (r: Result<string, ClusterError>)
    ensures secret.None? ==> r == Err(SecretLookupFailed)
    ensures secret.Some? && "username" !in secret.value ==> r == Err(UsernameMissing)
    ensures secret.Some? && "username" in secret.value && "password" !in secret.value ==> r == Err(PasswordMissing)
    ensures r.Ok? <==> secret.Some? && "username" in secret.value && "password" in secret.value &&
                       exists i :: 0 <= i < |attempts| && attempts[i]
    ensures r.Ok? ==> r.value == Dsn(url, secret.value["username"], secret.value["password"])
  {
    match secret
    case None => Err(SecretLookupFailed)
    case Some(data) =>
      if "username" !in data then Err(UsernameMissing)
      else if "password" !in data then Err(PasswordMissing)
      else if Retry.PollFlags(attempts) then Ok(Dsn(url, data["username"], data["password"]))
      else Err(ConnectTimeout)
  }

  // ---------------------------------------------------------------------
  // Pointers to constant strings

  class StringRef {
    var value: string

    constructor(s: string)
      ensures value == s
    {
      value := s;
    }
  }

  /** A reference to a new cell holding `s`. */
  method ConstStrToPointer(s: string) returns (p: StringRef)
    ensures fresh(p)
    ensures p.value == s
  {
    p := new StringRef(s);
  }
}

=== FILE: decimal.dfy ===
/** Decimal rendering and parsing of integers, as `strconv.Itoa`, `%d`
    and digit-string parsing do it. */
module Decimal {
  import opened Results
  import opened Text

  predicate IsDigit(c: char) {
    '0' <= c <= '9'
  }

  predicate AllDigits(s: string) {
    forall i :: 0 <= i < |s| ==> IsDigit(s[i])
  }

  function DigitValue(c: char): (d: nat)
    requires IsDigit(c)
    ensures d < 10
  {
    (c as int) - ('0' as int)
  }

  function DigitChar(d: nat): (c: char)
    requires d < 10
    ensures IsDigit(c) && DigitValue(c) == d
  {
    ((('0' as int) + d) as char)
  }

  /** The shortest decimal rendering of `n`. */
  function NatToString(n: nat): (s: string)
    ensures |s| >= 1 && AllDigits(s)
    decreases n
  {
    if n < 10 then [DigitChar(n)] else NatToString(n / 10) + [DigitChar(n % 10)]
  }

  /** The value of a digit string, most significant digit first. */
  function DigitsToNat(s: string): nat
    requires AllDigits(s)
  {
    if |s| == 0 then 0 else DigitsToNat(s[..|s| - 1]) * 10 + DigitValue(s[|s| - 1])
  }

  function ParseNat(s: string): (r: Option<nat>)
    ensures r.Some? <==> |s| >= 1 && AllDigits(s)
  {
    if |s| >= 1 && AllDigits(s) then Some(DigitsToNat(s)) else None
  }

  /** `%d` / `strconv.Itoa`: a minus sign, then the magnitude. */
  function IntToString(i: int): (s: string)
    ensures |s| >= 1
    ensures i < 0 <==> s[0] == '-'
  {
    if i < 0 then "-" + NatToString(-i) else NatToString(i)
  }

  function ParseInt(s: string): Option<int> {
    var negative := |s| >= 1 && s[0] == '-';
    match ParseNat(if negative then s[1..] else s)
    case Some(n) => var m: int := n; Some(if negative then -m else m)
    case None => None
  }

  lemma {:induction false} DigitsOfNat(n: nat)
    ensures DigitsToNat(NatToString(n)) == n
    decreases n
  {
    if n >= 10 {
      var s := NatToString(n);
      assert s[..|s| - 1] == NatToString(n / 10);
      DigitsOfNat(n / 10);
    }
  }

  /** Parsing inverts rendering on every natural number. */
  lemma ParseNatOfNat(n: nat)
    ensures ParseNat(NatToString(n)) == Some(n)
  {
    DigitsOfNat(n);
  }


  lemma ParseIntOfInt(i: int)
    ensures ParseInt(IntToString(i)) == Some(i)
  {
    ParseNatOfNat(if i < 0 then -i else i);
    if i < 0 {
      assert IntToString(i)[1..] == NatToString(-i);
    }
  }

  /** Reads the longest leading run of digits as a number and returns it
      with the unread rest. */
  function ReadNat(s: string): (r: Option<(nat, string)>)
    ensures r.Some? ==> |r.value.1| < |s|
  {
    var k := Span(s, IsDigit);
    if k == 0 then None else Some((DigitsToNat(s[..k]), s[k..]))
  }

  /** Reading back a rendered number stops right after its last digit. */
  lemma ReadNatOfNat(n: nat, rest: string)
    requires |rest| == 0 || !IsDigit(rest[0])
    ensures ReadNat(NatToString(n) + rest) == Some((n, rest))
  {
    var s := NatToString(n) + rest;
    SpanOfConcat(NatToString(n), rest, IsDigit);
    assert s[..|NatToString(n)|] == NatToString(n);
    assert s[|NatToString(n)|..] == rest;
    DigitsOfNat(n);
  }
}

=== FILE: migration.dfy ===
/** The data-schema migration job: it resolves the schema version stored in
    ClickHouse, compares it with the running Theia version, invokes the
    upgrading or downgrading migrators in between and records the new
    version. Database calls, environment variables and retry timing are
    inputs; a run is a trace of the migrator invocations and version writes
    it performs, ending in the reason it stopped. */
module Migration {
  import opened Results
  import opened Text
  import Retry

  /** The build-time migration table: version label to position, and how
      many upgrading and downgrading migrators are linked in. */
  datatype Plan = Plan(versionToIndex: map<string, int>, upgradingMigrators: nat, downgradingMigrators: nat)

  /** The table this build ships: two versions, one migrator each way. */
  const Shipped := Plan(map["v0.1.0" := 0, "v0.2.0" := 1], 1, 1)

  /** `CLICKHOUSE_USERNAME`, `CLICKHOUSE_PASSWORD`, `DB_URL`, `THEIA_VERSION`. */
  datatype Env = Env(username: string, password: string, dbUrl: string, theiaVersion: string)

  /** One database round trip: a scanned value or a driver error message. */
  datatype QueryAttempt<T> = Returned(value: T) | Failed(message: string)

  /** What the database does on each attempt of each poll, in order. */
  datatype Store = Store(
    connectAttempts: seq<bool>,
    versionReads: seq<QueryAttempt<string>>,
    flowsCounts: seq<QueryAttempt<nat>>,
    writeAttempts: seq<bool>)

  datatype Direction = Upgrading | Downgrading

  datatype Action =
    | CountMismatch(direction: Direction, actual: nat, expected: int)
    | Upgrade(index: int)
    | Downgrade(index: int)
    | WriteVersion(version: string)

  datatype Exit =
    | MissingCredentials
    | ConnectTimeout
    | DataVersionUnavailable(cause: VersionError)
    | NoDataSchema
    | MissingTheiaVersion
    | UnknownDataVersion(dataVersion: string)
    | UnknownTheiaVersion(theiaVersion: string)
    | MigratorOutOfRange(index: int)
    | Finished(versionStored: bool)

  datatype Trace = Trace(actions: seq<Action>, exit: Exit)

  datatype VersionError = VersionReadTimeout | FlowsCountTimeout

  datatype ConnectError = MissingEnvironment | ConnectionTimeout

  const NotFound := "not found"
  const LegacyVersion := "v0.1.0"
  const MissingVersionTable := "Table default.migrate_version doesn't exist"
  const MissingFlowsTable := "Table default.flows doesn't exist"

  // ---------------------------------------------------------------------
  // Start-up check of the migrator counts

  function ExpectedMigrators(plan: Plan): int {
    |plan.versionToIndex| - 1
  }

  /** The error lines logged when a migrator list has the wrong length. */
  function MismatchLogs(plan: Plan): (logs: seq<Action>)
    ensures |logs| <= 2
    ensures forall a :: a in logs ==> a.CountMismatch? && a.expected == ExpectedMigrators(plan)
    ensures CountMismatch(Upgrading, plan.upgradingMigrators, ExpectedMigrators(plan)) in logs
            <==> plan.upgradingMigrators != ExpectedMigrators(plan)
    ensures CountMismatch(Downgrading, plan.downgradingMigrators, ExpectedMigrators(plan)) in logs
            <==> plan.downgradingMigrators != ExpectedMigrators(plan)
    ensures forall a :: a in logs ==>
              a.actual == (if a.direction == Upgrading then plan.upgradingMigrators else plan.downgradingMigrators)
    ensures forall i, j :: 0 <= i < j < |logs| ==> logs[i].direction != logs[j].direction
    ensures |logs| == 2 ==> logs[0].direction == Upgrading
  {
    var expected := ExpectedMigrators(plan);
    (if plan.upgradingMigrators != expected then [CountMismatch(Upgrading, plan.upgradingMigrators, expected)] else [])
    + (if plan.downgradingMigrators != expected then [CountMismatch(Downgrading, plan.downgradingMigrators, expected)] else [])
  }

  lemma ShippedPlanIsConsistent()
    ensures MismatchLogs(Shipped) == []
  {
    assert Shipped.versionToIndex.Keys == {"v0.1.0", "v0.2.0"};
    assert |Shipped.versionToIndex| == 2;
  }

  // ---------------------------------------------------------------------
  // connectLoop and getTheiaVerstion

  predicate HasCredentials(env: Env) {
    |env.username| > 0 && |env.password| > 0 && |env.dbUrl| > 0
  }

  /** `connectLoop`: the environment check, then the open-and-ping poll.
      The data source name it opens is returned on success. */
  function ConnectLoop(env: Env, attempts: seq<bool>): (r: Result<string, ConnectError>)
    ensures r == Err(MissingEnvironment) <==> !HasCredentials(env)
    ensures r.Ok? <==> HasCredentials(env) && exists i :: 0 <= i < |attempts| && attempts[i]
    ensures r.Ok? ==> env.dbUrl <= r.value
  {
    if !HasCredentials(env) then Err(MissingEnvironment)
    else if !Retry.PollFlags(attempts) then Err(ConnectionTimeout)
    else Ok(env.dbUrl + "?debug=true&username=" + env.username + "&password=" + env.password)
  }

  /** `getTheiaVerstion`: the target version comes from `THEIA_VERSION`. */
  function TheiaVersion(env: Env): (r: Option<string>)
    ensures r.Some? <==> |env.theiaVersion| > 0
    ensures r.Some? ==> r.value == env.theiaVersion
  {
    if |env.theiaVersion| == 0 then None else Some(env.theiaVersion)
  }

  // ---------------------------------------------------------------------
  // getDataVersion

  /** The condition of the version-table poll: a scanned row stops it, a
      missing table stops it with "not found", any other error retries. */
  function VersionAttempt(a: QueryAttempt<string>): Option<string> {
    match a
    case Returned(v) => Some(v)
    case Failed(m) => if Contains(m, MissingVersionTable) then Some(NotFound) else None
  }

  /** The condition of the legacy `flows` poll: any scanned count stops it. */
  function FlowsAttempt(a: QueryAttempt<nat>): Option<string> {
    match a
    case Returned(_) => Some(LegacyVersion)
    case Failed(_) => None
  }

  predicate Transient(a: QueryAttempt<string>) {
    VersionAttempt(a).None?
  }

  /** `getDataVersion`. A missing version table means "not found", which
      becomes the legacy version once a count of `flows` succeeds. */
  function GetDataVersion(versionReads: seq<QueryAttempt<string>>, flowsCounts: seq<QueryAttempt<nat>>): (r: Result<string, VersionError>)
    ensures r == Err(VersionReadTimeout) <==> forall i :: 0 <= i < |versionReads| ==> Transient(versionReads[i])
    ensures r.Ok? && r.value != LegacyVersion ==>
              exists i :: 0 <= i < |versionReads| && versionReads[i] == Returned(r.value)
                          && forall j :: 0 <= j < i ==> Transient(versionReads[j])
    ensures r.Ok? ==> r.value != NotFound
    ensures forall i :: 0 <= i < |versionReads| && versionReads[i].Returned? && versionReads[i].value != NotFound &&
                        (forall j :: 0 <= j < i ==> Transient(versionReads[j])) ==>
              r == Ok(versionReads[i].value)
  {
    match Retry.Poll(Retry.Classify(versionReads, VersionAttempt))
    case None => Err(VersionReadTimeout)
    case Some(v) =>
      if v != NotFound then Ok(v)
      else
        match Retry.Poll(Retry.Classify(flowsCounts, FlowsAttempt))
        case None => Err(FlowsCountTimeout)
        case Some(legacy) => Ok(legacy)
  }

  /** The legacy path: the first read that stops is a missing-table error,
      and then the version is v0.1.0 exactly when some `flows` count
      succeeds. */
  lemma MissingVersionTableFallsBack(versionReads: seq<QueryAttempt<string>>, flowsCounts: seq<QueryAttempt<nat>>, i: nat)
    requires i < |versionReads| && versionReads[i].Failed? && Contains(versionReads[i].message, MissingVersionTable)
    requires forall j :: 0 <= j < i ==> Transient(versionReads[j])
    ensures (exists k :: 0 <= k < |flowsCounts| && flowsCounts[k].Returned?) ==> GetDataVersion(versionReads, flowsCounts) == Ok(LegacyVersion)
    ensures (forall k :: 0 <= k < |flowsCounts| ==> flowsCounts[k].Failed?) ==> GetDataVersion(versionReads, flowsCounts) == Err(FlowsCountTimeout)
  {
    var tries := Retry.Classify(versionReads, VersionAttempt);
    assert Retry.FirstStop(tries) == i;
    var flows := Retry.Classify(flowsCounts, FlowsAttempt);
    if exists k :: 0 <= k < |flowsCounts| && flowsCounts[k].Returned? {
      var k :| 0 <= k < |flowsCounts| && flowsCounts[k].Returned?;
      assert flows[k].Some?;
    }
  }

  // ---------------------------------------------------------------------
  // The migrator loops of main

  /** The upgrade loop: invokes the upgrading migrators from index `i` up to,
      but not including, `hi`; an index outside the migrator list aborts the
      run (a Go index panic). The migrators' errors are discarded, so they
      are not part of the model. */
  function UpgradeSteps(i: int, hi: int, count: nat): (r: (seq<Action>, Option<int>))
    ensures forall i :: 0 <= i < |r.0| ==> r.0[i].Upgrade?
    ensures 0 <= i <= hi <= count ==> r.0 == seq(hi - i, k => Upgrade(i + k)) && r.1 == None
    ensures 0 <= i <= count < hi ==> r == (seq(count - i, k => Upgrade(i + k)), Some(count))
    ensures i >= hi ==> r == ([], None)
    decreases hi - i
  {
    if i >= hi then ([], None)
    else if i < 0 || i >= count then
      assert i == count ==> seq(count - i, k => Upgrade(i + k)) == [];
      ([], Some(i))
    else
      var rest := UpgradeSteps(i + 1, hi, count);
      assert count < hi ==> [Upgrade(i)] + rest.0 == seq(count - i, k => Upgrade(i + k));
      ([Upgrade(i)] + rest.0, rest.1)
  }

  /** The downgrade loop: invokes the downgrading migrators from index `i`
      down to and including `lo`; an out-of-range index aborts the run. */
  function DowngradeSteps(i: int, lo: int, count: nat): (r: (seq<Action>, Option<int>))
    ensures forall i :: 0 <= i < |r.0| ==> r.0[i].Downgrade?
    ensures 0 <= lo <= i + 1 && i < count ==> r.0 == seq(i + 1 - lo, k => Downgrade(i - k)) && r.1 == None
    ensures lo <= i && count <= i ==> r == ([], Some(i))
    ensures i < lo ==> r == ([], None)
    decreases i - lo
  {
    if i < lo then ([], None)
    else if i < 0 || i >= count then ([], Some(i))
    else
      var rest := DowngradeSteps(i - 1, lo, count);
      ([Downgrade(i)] + rest.0, rest.1)
  }

  /** How the downgrade loop walks the indices: as the source writes it, or
      as the mirror of the upgrade loop. */
  datatype Walk = AsWritten | Mirrored

  /** The branch of `main` on the two version indices. As written, the
      downgrade loop starts at `theiaIndex - 1` and runs while `i >= dataIndex`. */
  function MigrateSteps(plan: Plan, walk: Walk, dataIndex: int, theiaIndex: int): (r: (seq<Action>, Option<int>))
    ensures forall i :: 0 <= i < |r.0| ==> r.0[i].Upgrade? || r.0[i].Downgrade?
    ensures dataIndex < theiaIndex ==> r == UpgradeSteps(dataIndex, theiaIndex, plan.upgradingMigrators)
    ensures dataIndex > theiaIndex && walk == AsWritten ==>
              r == DowngradeSteps(theiaIndex - 1, dataIndex, plan.downgradingMigrators)
    ensures dataIndex > theiaIndex && walk == Mirrored ==>
              r == DowngradeSteps(dataIndex - 1, theiaIndex, plan.downgradingMigrators)
    ensures dataIndex == theiaIndex ==> r == ([], None)
  {
    if dataIndex < theiaIndex then UpgradeSteps(dataIndex, theiaIndex, plan.upgradingMigrators)
    else if dataIndex > theiaIndex then
      match walk
      case AsWritten => DowngradeSteps(theiaIndex - 1, dataIndex, plan.downgradingMigrators)
      case Mirrored => DowngradeSteps(dataIndex - 1, theiaIndex, plan.downgradingMigrators)
    else ([], None)
  }

  /** The steps of `main` after the start-up count check, parameterised by
      how the data version is resolved and how the indices are walked. */
  function Drive(plan: Plan, env: Env, store: Store, dataVersion: Result<string, VersionError>, walk: Walk): (r: Trace)
    ensures WritesOnlyAtEnd(r, env.theiaVersion)
  {
    if ConnectLoop(env, store.connectAttempts) == Err(MissingEnvironment) then Trace([], MissingCredentials)
    else if ConnectLoop(env, store.connectAttempts).Err? then Trace([], ConnectTimeout)
    else match dataVersion
      case Err(e) => Trace([], DataVersionUnavailable(e))
      case Ok(dv) =>
        if dv == NotFound then Trace([], NoDataSchema)
        else if TheiaVersion(env).None? then Trace([], MissingTheiaVersion)
        else if dv !in plan.versionToIndex then Trace([], UnknownDataVersion(dv))
        else if env.theiaVersion !in plan.versionToIndex then Trace([], UnknownTheiaVersion(env.theiaVersion))
        else
          var s := MigrateSteps(plan, walk, plan.versionToIndex[dv], plan.versionToIndex[env.theiaVersion]);
          if s.1.Some? then Trace(s.0, MigratorOutOfRange(s.1.value))
          else Trace(s.0 + [WriteVersion(env.theiaVersion)], Finished(Retry.PollFlags(store.writeAttempts)))
  }

  predicate WritesOnlyAtEnd(t: Trace, target: string) {
    && (forall i :: 0 <= i < |t.actions| && t.actions[i].WriteVersion? ==>
          i == |t.actions| - 1 && t.actions[i].version == target)
    && (t.exit.Finished? <==> |t.actions| > 0 && t.actions[|t.actions| - 1].WriteVersion?)
  }

  /** The count-check log lines in front of the rest of a run. */
  function WithLogs(plan: Plan, core: Trace, target: string): (r: Trace)
    requires WritesOnlyAtEnd(core, target)
    ensures |MismatchLogs(plan)| <= |r.actions|
    ensures r.actions[..|MismatchLogs(plan)|] == MismatchLogs(plan)
    ensures r.actions[|MismatchLogs(plan)|..] == core.actions
    ensures r.exit == core.exit
    ensures WritesOnlyAtEnd(r, target)
  {
    var logs := MismatchLogs(plan);
    assert forall i :: 0 <= i < |logs| ==> logs[i] in logs;
    LogsKeepWrites(logs, core, target);
    Trace(logs + core.actions, core.exit)
  }

  /** Lines that write nothing, put in front, keep the single final write. */
  lemma LogsKeepWrites(logs: seq<Action>, core: Trace, target: string)
    requires forall i :: 0 <= i < |logs| ==> !logs[i].WriteVersion?
    requires WritesOnlyAtEnd(core, target)
    ensures WritesOnlyAtEnd(Trace(logs + core.actions, core.exit), target)
  {
    var actions := logs + core.actions;
    assert forall i :: |logs| <= i < |actions| ==> actions[i] == core.actions[i - |logs|];
  }

  /** One run of the migration job, as written. */
  function Run(plan: Plan, env: Env, store: Store): (r: Trace)
    ensures |MismatchLogs(plan)| <= |r.actions|
    ensures r.actions[..|MismatchLogs(plan)|] == MismatchLogs(plan)
    ensures WritesOnlyAtEnd(r, env.theiaVersion)
  {
    WithLogs(plan, Drive(plan, env, store, GetDataVersion(store.versionReads, store.flowsCounts), AsWritten), env.theiaVersion)
  }

  // ---------------------------------------------------------------------
  // Properties of a run

  predicate Recognised(plan: Plan, env: Env, dataVersion: string) {
    dataVersion in plan.versionToIndex && env.theiaVersion in plan.versionToIndex
  }

  predicate Connects(env: Env, store: Store) {
    HasCredentials(env) && exists i :: 0 <= i < |store.connectAttempts| && store.connectAttempts[i]
  }

  /** Missing credentials stop the run before any connection attempt: the
      database plays no part in the outcome. */
  lemma MissingCredentialsStopFirst(plan: Plan, env: Env, store: Store)
    requires !HasCredentials(env)
    ensures Run(plan, env, store) == Trace(MismatchLogs(plan), MissingCredentials)
  {
  }

  /** A data version of "not found" ends the run with nothing invoked and
      nothing written, whatever the target version is. */
  lemma NotFoundExits(plan: Plan, env: Env, store: Store, walk: Walk)
    requires Connects(env, store)
    ensures Drive(plan, env, store, Ok(NotFound), walk) == Trace([], NoDataSchema)
  {
  }

  /** An empty `THEIA_VERSION` ends the run once a data version is known. */
  lemma MissingTheiaVersionExits(plan: Plan, env: Env, store: Store, dv: string)
    requires Connects(env, store) && |env.theiaVersion| == 0
    requires GetDataVersion(store.versionReads, store.flowsCounts) == Ok(dv)
    ensures Run(plan, env, store) == Trace(MismatchLogs(plan), MissingTheiaVersion)
  {
  }

  /** A version missing from the table ends the run before any migrator or
      version write. */
  lemma UnrecognisedVersionExits(plan: Plan, env: Env, store: Store, dv: string)
    requires Connects(env, store) && |env.theiaVersion| > 0
    requires GetDataVersion(store.versionReads, store.flowsCounts) == Ok(dv)
    requires !Recognised(plan, env, dv)
    ensures Run(plan, env, store).actions == MismatchLogs(plan)
    ensures Run(plan, env, store).exit == (if dv !in plan.versionToIndex then UnknownDataVersion(dv)
                                           else UnknownTheiaVersion(env.theiaVersion))
  {
  }

  /** Upgrading invokes `upgradingMigrators[i]` for i = dataIndex ...
      theiaIndex - 1 in increasing order, then writes the target version. */
  lemma UpgradeInvokesRangeInOrder(plan: Plan, env: Env, store: Store, dv: string)
    requires Connects(env, store) && |env.theiaVersion| > 0
    requires GetDataVersion(store.versionReads, store.flowsCounts) == Ok(dv)
    requires Recognised(plan, env, dv)
    requires 0 <= plan.versionToIndex[dv] < plan.versionToIndex[env.theiaVersion] <= plan.upgradingMigrators
    ensures Run(plan, env, store).actions ==
              MismatchLogs(plan)
              + seq(plan.versionToIndex[env.theiaVersion] - plan.versionToIndex[dv],
                    k => Upgrade(plan.versionToIndex[dv] + k))
              + [WriteVersion(env.theiaVersion)]
    ensures Run(plan, env, store).exit.Finished?
  {
  }

  /** An upgrading list too short for the upgrade: the loop invokes the
      migrators it has, from the data index on, and then indexes past the
      end of the list, which aborts the run. */
  lemma ShortUpgradeListAborts(plan: Plan, env: Env, store: Store, dv: string)
    requires Connects(env, store) && |env.theiaVersion| > 0
    requires GetDataVersion(store.versionReads, store.flowsCounts) == Ok(dv)
    requires Recognised(plan, env, dv)
    requires 0 <= plan.versionToIndex[dv] <= plan.upgradingMigrators < plan.versionToIndex[env.theiaVersion]
    ensures Run(plan, env, store) ==
              Trace(MismatchLogs(plan)
                    + seq(plan.upgradingMigrators - plan.versionToIndex[dv], k => Upgrade(plan.versionToIndex[dv] + k)),
                    MigratorOutOfRange(plan.upgradingMigrators))
  {
  }

  /** Downgrading, as written, invokes no migrator at all and so can never
      index outside the migrator list; the target version is still written. */
  lemma DowngradeInvokesNothing(plan: Plan, env: Env, store: Store, dv: string)
    requires Connects(env, store) && |env.theiaVersion| > 0
    requires GetDataVersion(store.versionReads, store.flowsCounts) == Ok(dv)
    requires Recognised(plan, env, dv)
    requires plan.versionToIndex[dv] > plan.versionToIndex[env.theiaVersion]
    ensures Run(plan, env, store).actions == MismatchLogs(plan) + [WriteVersion(env.theiaVersion)]
    ensures Run(plan, env, store).exit == Finished(Retry.PollFlags(store.writeAttempts))
  {
  }

  /** Equal indices migrate nothing and still rewrite the version. */
  lemma SameVersionOnlyRewrites(plan: Plan, env: Env, store: Store, dv: string)
    requires Connects(env, store) && |env.theiaVersion| > 0
    requires GetDataVersion(store.versionReads, store.flowsCounts) == Ok(dv)
    requires Recognised(plan, env, dv)
    requires plan.versionToIndex[dv] == plan.versionToIndex[env.theiaVersion]
    ensures Run(plan, env, store) == Trace(MismatchLogs(plan) + [WriteVersion(env.theiaVersion)],
                                           Finished(Retry.PollFlags(store.writeAttempts)))
  {
  }

  /** A wrong migrator count is only logged: as long as every index of the
      table stays inside both migrator lists, how long the lists are does
      not change what the run does after the log lines. */
  lemma {:induction false} MismatchIsOnlyLogged(p1: Plan, p2: Plan, env: Env, store: Store)
    requires p1.versionToIndex == p2.versionToIndex
    requires forall v :: v in p1.versionToIndex ==>
               0 <= p1.versionToIndex[v] <= p1.upgradingMigrators
               && p1.versionToIndex[v] <= p2.upgradingMigrators
    ensures Run(p1, env, store).actions[|MismatchLogs(p1)|..] == Run(p2, env, store).actions[|MismatchLogs(p2)|..]
    ensures Run(p1, env, store).exit == Run(p2, env, store).exit
  {
    var dvr := GetDataVersion(store.versionReads, store.flowsCounts);
    DriveIgnoresCounts(p1, p2, env, store, dvr);
    var c1 := Drive(p1, env, store, dvr, AsWritten);
    var c2 := Drive(p2, env, store, dvr, AsWritten);
    assert Run(p1, env, store).actions[|MismatchLogs(p1)|..] == c1.actions;
    assert Run(p2, env, store).actions[|MismatchLogs(p2)|..] == c2.actions;
  }

  lemma DriveIgnoresCounts(p1: Plan, p2: Plan, env: Env, store: Store, dvr: Result<string, VersionError>)
    requires p1.versionToIndex == p2.versionToIndex
    requires forall v :: v in p1.versionToIndex ==>
               0 <= p1.versionToIndex[v] <= p1.upgradingMigrators
               && p1.versionToIndex[v] <= p2.upgradingMigrators
    ensures Drive(p1, env, store, dvr, AsWritten) == Drive(p2, env, store, dvr, AsWritten)
  {
    if dvr.Ok? && Recognised(p1, env, dvr.value) {
      StepsIgnoreCounts(p1, p2, p1.versionToIndex[dvr.value], p1.versionToIndex[env.theiaVersion]);
    }
  }

  lemma StepsIgnoreCounts(p1: Plan, p2: Plan, d: int, t: int)
    requires 0 <= d <= p1.upgradingMigrators && d <= p2.upgradingMigrators
    requires 0 <= t <= p1.upgradingMigrators && t <= p2.upgradingMigrators
    ensures MigrateSteps(p1, AsWritten, d, t) == MigrateSteps(p2, AsWritten, d, t)
  {
  }

  /** The shipped upgrade: v0.1.0 data under a v0.2.0
      binary runs the one upgrading migrator, then records v0.2.0. */
  lemma ShippedUpgradeScenario(env: Env, store: Store)
    requires Connects(env, store) && env.theiaVersion == "v0.2.0"
    requires GetDataVersion(store.versionReads, store.flowsCounts) == Ok("v0.1.0")
    ensures Run(Shipped, env, store).actions == [Upgrade(0), WriteVersion("v0.2.0")]
  {
    ShippedPlanIsConsistent();
    UpgradeInvokesRangeInOrder(Shipped, env, store, "v0.1.0");
  }

  // ---------------------------------------------------------------------
  // The source as written against the evident intent

  /** A stored v0.2.0 under a v0.1.0 binary: `migrateV020ToV010` is never
      invoked, only the version is rewritten. */
  lemma DowngradeSkipsMigrator(env: Env, store: Store)
    requires Connects(env, store) && env.theiaVersion == "v0.1.0"
    requires store.versionReads == [Returned("v0.2.0")]
    ensures Run(Shipped, env, store).actions == [WriteVersion("v0.1.0")]
  {
    ShippedPlanIsConsistent();
    var tries := Retry.Classify(store.versionReads, VersionAttempt);
    assert tries[0] == Some("v0.2.0");
    assert Retry.FirstStop(tries) == 0;
  }

  /** With neither the version table nor `flows` present, the run as
      written never reaches the "no data schema" exit: the flows poll times
      out and the run stops as if the version could not be read. */
  lemma EmptySchemaReportsReadFailure(plan: Plan, env: Env, store: Store)
    requires Connects(env, store)
    requires store.versionReads == [Failed(MissingVersionTable)]
    requires store.flowsCounts == [Failed(MissingFlowsTable)]
    ensures Run(plan, env, store).exit == DataVersionUnavailable(FlowsCountTimeout)
  {
    assert Contains(MissingVersionTable, MissingVersionTable) by {
      assert MissingVersionTable <= MissingVersionTable[0..];
    }
    MissingVersionTableFallsBack(store.versionReads, store.flowsCounts, 0);
  }

  /** As written, the "no data schema" exit is unreachable: a data version
      of "not found", read from the table or produced by a missing table,
      always goes through the `flows` poll, which either succeeds with
      v0.1.0 or times out. */
  lemma NoDataSchemaIsUnreachable(plan: Plan, env: Env, store: Store)
    ensures Run(plan, env, store).exit != NoDataSchema
  {
  }

  /** The evidently intended legacy check: a missing `flows` table stops
      the second poll with "not found" as well. */
  function FlowsAttemptCorrected(a: QueryAttempt<nat>): Option<string> {
    match a
    case Returned(_) => Some(LegacyVersion)
    case Failed(m) => if Contains(m, MissingFlowsTable) then Some(NotFound) else None
  }

  function GetDataVersionCorrected(versionReads: seq<QueryAttempt<string>>, flowsCounts: seq<QueryAttempt<nat>>): Result<string, VersionError> {
    match Retry.Poll(Retry.Classify(versionReads, VersionAttempt))
    case None => Err(VersionReadTimeout)
    case Some(v) =>
      if v != NotFound then Ok(v)
      else
        match Retry.Poll(Retry.Classify(flowsCounts, FlowsAttemptCorrected))
        case None => Err(FlowsCountTimeout)
        case Some(found) => Ok(found)
  }

  function RunCorrected(plan: Plan, env: Env, store: Store): (r: Trace)
    ensures |MismatchLogs(plan)| <= |r.actions|
    ensures r.actions[..|MismatchLogs(plan)|] == MismatchLogs(plan)
    ensures WritesOnlyAtEnd(r, env.theiaVersion)
  {
    WithLogs(plan, Drive(plan, env, store, GetDataVersionCorrected(store.versionReads, store.flowsCounts), Mirrored), env.theiaVersion)
  }

  /** Corrected downgrade: migrators dataIndex - 1 down to theiaIndex, in
      decreasing order, then the version write. */
  lemma CorrectedDowngradeInvokesMirrorRange(plan: Plan, env: Env, store: Store, dv: string)
    requires Connects(env, store) && |env.theiaVersion| > 0
    requires GetDataVersionCorrected(store.versionReads, store.flowsCounts) == Ok(dv) && dv != NotFound
    requires Recognised(plan, env, dv)
    requires 0 <= plan.versionToIndex[env.theiaVersion] < plan.versionToIndex[dv] <= plan.downgradingMigrators
    ensures RunCorrected(plan, env, store).actions ==
              MismatchLogs(plan)
              + seq(plan.versionToIndex[dv] - plan.versionToIndex[env.theiaVersion],
                    k => Downgrade(plan.versionToIndex[dv] - 1 - k))
              + [WriteVersion(env.theiaVersion)]
  {
  }

  /** Corrected legacy check: with neither table present the run ends in
      the "no data schema" exit without invoking or writing anything. */
  lemma CorrectedEmptySchemaExits(plan: Plan, env: Env, store: Store)
    requires Connects(env, store)
    requires store.versionReads == [Failed(MissingVersionTable)]
    requires store.flowsCounts == [Failed(MissingFlowsTable)]
    ensures RunCorrected(plan, env, store) == Trace(MismatchLogs(plan), NoDataSchema)
  {
    assert Contains(MissingVersionTable, MissingVersionTable) by {
      assert MissingVersionTable <= MissingVersionTable[0..];
    }
    assert Contains(MissingFlowsTable, MissingFlowsTable) by {
      assert MissingFlowsTable <= MissingFlowsTable[0..];
    }
    var tries := Retry.Classify(store.versionReads, VersionAttempt);
    assert tries[0] == Some(NotFound);
    assert Retry.FirstStop(tries) == 0;
    var flows := Retry.Classify(store.flowsCounts, FlowsAttemptCorrected);
    assert flows[0] == Some(NotFound);
    assert Retry.FirstStop(flows) == 0;
  }

  /** The shipped downgrade under the corrected walk runs migrateV020ToV010. */
  lemma CorrectedShippedDowngrade(env: Env, store: Store)
    requires Connects(env, store) && env.theiaVersion == "v0.1.0"
    requires store.versionReads == [Returned("v0.2.0")]
    ensures RunCorrected(Shipped, env, store).actions == [Downgrade(0), WriteVersion("v0.1.0")]
  {
    ShippedPlanIsConsistent();
    var tries := Retry.Classify(store.versionReads, VersionAttempt);
    assert tries[0] == Some("v0.2.0");
    assert Retry.FirstStop(tries) == 0;
    CorrectedDowngradeInvokesMirrorRange(Shipped, env, store, "v0.2.0");
  }
}

=== FILE: monitor.dfy ===
/** The ClickHouse storage monitor, as its tests pin it down: parsing of
    capacity strings, the free-space trigger, the delete offset, and the
    statements of one monitoring round. The values the database returns in
    a round are inputs; a round is the sequence of statements it issues. */
module Monitor {
  import opened Results
  import opened Decimal
  import opened Text

  // ---------------------------------------------------------------------
  // parseSize

  function Pow(base: nat, n: nat): (r: nat)
    ensures r >= 1 || base == 0
  {
    if n == 0 then 1 else base * Pow(base, n - 1)
  }

  /** Unit suffixes: none (bytes), the decimal family K..E (powers of 1000)
      and the binary family Ki..Ei (powers of 1024). */
  function UnitMultiplier(unit: string): (m: Option<nat>)
    ensures m.Some? ==> m.value >= 1
    ensures m.Some? ==> |unit| == 0 || 'A' <= unit[0] <= 'Z'
  {
    var prefixes := "KMGTPE";
    if |unit| == 0 then Some(1)
    else if |unit| == 1 && unit[0] in prefixes then Some(Pow(1000, PrefixPower(unit[0])))
    else if |unit| == 2 && unit[0] in prefixes && unit[1] == 'i' then Some(Pow(1024, PrefixPower(unit[0])))
    else None
  }

  /** K is the first power, M the second, and so on up to E. */
  function PrefixPower(c: char): (n: nat)
    requires c in "KMGTPE"
    ensures 1 <= n <= 6
  {
    if c == 'K' then 1 else if c == 'M' then 2 else if c == 'G' then 3
    else if c == 'T' then 4 else if c == 'P' then 5 else 6
  }

  predicate IsNumberChar(c: char) {
    IsDigit(c) || c == '.'
  }

  /** An integer or fractional decimal: digits, optionally a point and more
      digits. */
  function ParseDecimal(t: string): (r: Option<real>)
    ensures r.Some? ==> r.value >= 0.0
    ensures r.Some? ==> |t| > 0 && IsDigit(t[0])
  {
    var k := Span(t, IsDigit);
    if k == 0 then None
    else if k == |t| then Some(DigitsToNat(t) as real)
    else if t[k] == '.' && k + 1 < |t| && AllDigits(t[k + 1..]) then
      Some(DigitsToNat(t[..k]) as real + (DigitsToNat(t[k + 1..]) as real) / (Pow(10, |t| - k - 1) as real))
    else None
  }

  /** `x` units of `m` bytes each. */
  function Scale(x: real, m: nat): (r: real)
    ensures x >= 0.0 ==> r >= 0.0
  {
    x * (m as real)
  }

  datatype SizeError = InvalidSizeFormat(text: string)

  /** `parseSize`: a number immediately followed by an optional unit, as an
      exact byte quantity. */
  function ParseSize(s: string): (r: Result<real, SizeError>)
    ensures r.Ok? ==> r.value >= 0.0
    ensures |s| == 0 || !IsDigit(s[0]) ==> r == Err(InvalidSizeFormat(s))
  {
    var k := Span(s, IsNumberChar);
    match ParseDecimal(s[..k])
    case None => Err(InvalidSizeFormat(s))
    case Some(n) =>
      match UnitMultiplier(s[k..])
      case None => Err(InvalidSizeFormat(s))
      case Some(m) => Ok(Scale(n, m))
  }

  /** Every whole number followed by every unit parses to that number of
      units. */
  lemma ParseSizeOfWhole(n: nat, unit: string)
    requires UnitMultiplier(unit).Some?
    ensures ParseSize(NatToString(n) + unit) == Ok(Scale(n as real, UnitMultiplier(unit).value))
  {
    var digits := NatToString(n);
    var s := digits + unit;
    NumberEndsAtUnit(n, unit);
    var k := |digits|;
    assert s[..k] == digits;
    assert s[k..] == unit;
    ParseDecimalOfNat(n);
    ParseSizeParts(s, k, n as real, UnitMultiplier(unit).value);
  }

  /** ParseSize reads the number up to the first non-number character and
      the unit after it. */
  lemma ParseSizeParts(s: string, k: nat, x: real, m: nat)
    requires k == Span(s, IsNumberChar)
    requires ParseDecimal(s[..k]) == Some(x)
    requires UnitMultiplier(s[k..]) == Some(m)
    ensures ParseSize(s) == Ok(Scale(x, m))
  {
  }

  /** The numeric part of a rendered number followed by a unit ends where
      the unit begins. */
  lemma NumberEndsAtUnit(n: nat, unit: string)
    requires UnitMultiplier(unit).Some?
    ensures Span(NatToString(n) + unit, IsNumberChar) == |NatToString(n)|
  {
    var digits := NatToString(n);
    assert AllSat(digits, IsNumberChar);
    SpanOfConcat(digits, unit, IsNumberChar);
  }

  lemma ParseDecimalOfNat(n: nat)
    ensures ParseDecimal(NatToString(n)) == Some(n as real)
  {
    var digits := NatToString(n);
    assert AllSat(digits, IsDigit);
    SpanOfConcat(digits, [], IsDigit);
    assert digits + [] == digits;
    DigitsOfNat(n);
  }

  /** The first value `TestParseSize` checks: 500 binary megabytes. */
  lemma ParseSizeBinaryTestValue()
    ensures ParseSize("500Mi") == Ok(524288000.0)
  {
    assert NatToString(500) == "500" by {
      assert NatToString(5) == "5";
      assert NatToString(50) == NatToString(5) + "0";
    }
    assert "500Mi" == NatToString(500) + "Mi";
    assert UnitMultiplier("Mi") == Some(1048576) by {
      assert Pow(1024, 2) == 1048576;
    }
    ParseSizeOfWhole(500, "Mi");
  }

  /** The second value `TestParseSize` checks: 2.5 decimal gigabytes. */
  lemma ParseSizeDecimalTestValue()
    ensures ParseSize("2.5G") == Ok(2500000000.0)
  {
    var t := "2.5G";
    assert Span(t, IsNumberChar) == 3 by {
      assert Span(t[3..], IsNumberChar) == 0;
    }
    assert t[..3] == "2.5" && t[3..] == "G";
    var d := "2.5";
    assert Span(d, IsDigit) == 1 by {
      assert Span(d[1..], IsDigit) == 0;
    }
    assert d[..1] == "2" && d[2..] == "5";
    assert DigitsToNat("2") == 2 && DigitsToNat("5") == 5;
    assert ParseDecimal(d) == Some(2.5);
    assert UnitMultiplier("G") == Some(1000000000);
  }

  // ---------------------------------------------------------------------
  // The eviction trigger and the delete offset

  /** `tableName`, `mvNames`, `allocatedSpace`, `threshold`,
      `deletePercentage`, fixed for the life of the process. */
  datatype MonitorConfig = MonitorConfig(
    tableName: string,
    mvNames: seq<string>,
    allocatedSpace: nat,
    threshold: real,
    deletePercentage: real)

  /** Deletion is due when free space falls below the threshold share of
      the allocated space. */
  predicate ShouldDelete(cfg: MonitorConfig, freeSpace: nat) {
    (freeSpace as real) < cfg.threshold * (cfg.allocatedSpace as real)
  }

  /** Less free space never switches deletion off, and the boundary value
      itself does not trigger it. */
  lemma ShouldDeleteIsDownwardClosed(cfg: MonitorConfig, free: nat, less: nat)
    requires less <= free
    ensures ShouldDelete(cfg, free) ==> ShouldDelete(cfg, less)
    ensures (free as real) == cfg.threshold * (cfg.allocatedSpace as real) ==> !ShouldDelete(cfg, free)
  {
  }

  /** The number of oldest rows a round removes: the row count times the
      delete percentage, truncated. */
  function DeleteOffset(rowCount: nat, deletePercentage: real): (offset: nat)
    requires 0.0 <= deletePercentage
    ensures (offset as real) <= (rowCount as real) * deletePercentage < (offset as real) + 1.0
    ensures deletePercentage <= 1.0 ==> offset <= rowCount
  {
    ((rowCount as real) * deletePercentage).Floor
  }

  // ---------------------------------------------------------------------
  // One monitoring round

  /** Insertion time of a row, in seconds. */
  type Timestamp = nat

  datatype Statement =
    | SelectDisks
    | SelectParts
    | CountRows(table: string)
    | SelectTimeAtOffset(table: string, offset: nat)
    | DeleteBefore(table: string, cutoff: Timestamp)

  /** What the database answers in one round: the disk row, the parts
      total, the row count of the base table and the insertion time found
      at the offset. */
  datatype Responses = Responses(freeSpace: nat, totalSpace: nat, partsBytes: nat, rowCount: nat, timeAtOffset: Timestamp)

  /** The base table first, then the views in configured order. */
  function Tables(cfg: MonitorConfig): seq<string> {
    [cfg.tableName] + cfg.mvNames
  }

  function DeleteAll(tables: seq<string>, cutoff: Timestamp): (r: seq<Statement>)
    ensures |r| == |tables|
    ensures forall i :: 0 <= i < |tables| ==> r[i] == DeleteBefore(tables[i], cutoff)
  {
    seq(|tables|, i requires 0 <= i < |tables| => DeleteBefore(tables[i], cutoff))
  }

  /** `monitorMemory`: sample the disk and the parts, and when deletion is
      due count the base table, read the insertion time at the offset and
      delete everything older from every table. */
  function MonitorMemory(cfg: MonitorConfig, resp: Responses): (stmts: seq<Statement>)
    requires 0.0 <= cfg.deletePercentage
    ensures |stmts| >= 2 && stmts[0] == SelectDisks && stmts[1] == SelectParts
    ensures !ShouldDelete(cfg, resp.freeSpace) ==> |stmts| == 2
    ensures ShouldDelete(cfg, resp.freeSpace) ==> |stmts| >= 3 && stmts[2] == CountRows(cfg.tableName)
  {
    [SelectDisks, SelectParts]
    + if !ShouldDelete(cfg, resp.freeSpace) then []
      else
        var offset := DeleteOffset(resp.rowCount, cfg.deletePercentage);
        [CountRows(cfg.tableName)]
        + if offset == 0 then []
          else [SelectTimeAtOffset(cfg.tableName, offset)] + DeleteAll(Tables(cfg), resp.timeAtOffset)
  }

  /** The deletes of a round: one per table, base table first, then the
      views in order, all with the time read at the offset as cutoff; and
      none at all when deletion is not due. */
  lemma RoundDeletesEveryTableOnce(cfg: MonitorConfig, resp: Responses)
    requires 0.0 <= cfg.deletePercentage
    ensures var stmts := MonitorMemory(cfg, resp);
            var offset := DeleteOffset(resp.rowCount, cfg.deletePercentage);
            if ShouldDelete(cfg, resp.freeSpace) && offset > 0 then
              && |stmts| == 4 + |Tables(cfg)|
              && stmts[3] == SelectTimeAtOffset(cfg.tableName, offset)
              && forall i :: 0 <= i < |Tables(cfg)| ==> stmts[4 + i] == DeleteBefore(Tables(cfg)[i], resp.timeAtOffset)
            else
              forall i :: 0 <= i < |stmts| ==> !stmts[i].DeleteBefore?
  {
  }

  // ---------------------------------------------------------------------
  // Effect of a round on the tables

  /** Insertion times of the rows of each table. */
  type Db = map<string, seq<Timestamp>>

  /** The rows a delete with this cutoff keeps, in their order. */
  function KeepFrom(rows: seq<Timestamp>, cutoff: Timestamp): (kept: seq<Timestamp>)
    ensures forall x :: x in kept <==> x in rows && x >= cutoff
    ensures |kept| <= |rows|
  {
    if |rows| == 0 then []
    else (if rows[0] >= cutoff then [rows[0]] else []) + KeepFrom(rows[1..], cutoff)
  }

  lemma {:induction false} KeepFromIdempotent(rows: seq<Timestamp>, cutoff: Timestamp)
    ensures KeepFrom(KeepFrom(rows, cutoff), cutoff) == KeepFrom(rows, cutoff)
  {
    if |rows| > 0 {
      KeepFromIdempotent(rows[1..], cutoff);
      var rest := KeepFrom(rows[1..], cutoff);
      if rows[0] >= cutoff {
        assert ([rows[0]] + rest)[1..] == rest;
      } else {
        assert KeepFrom(rows, cutoff) == rest;
      }
    }
  }

  /** Queries leave the tables alone; a delete keeps the rows at or after
      its cutoff. */
  function Apply(db: Db, stmt: Statement): Db {
    match stmt
    case DeleteBefore(t, c) => if t in db then db[t := KeepFrom(db[t], c)] else db
    case _ => db
  }

  function ApplyAll(db: Db, stmts: seq<Statement>): Db
    decreases |stmts|
  {
    if |stmts| == 0 then db else ApplyAll(Apply(db, stmts[0]), stmts[1..])
  }

  /** Deleting with one cutoff from a list of tables prunes each listed
      table to that cutoff and leaves every other table as it was. */
  lemma {:induction false} DeleteAllPrunes(db: Db, tables: seq<string>, cutoff: Timestamp)
    ensures ApplyAll(db, DeleteAll(tables, cutoff)).Keys == db.Keys
    ensures forall t :: t in db && t in tables ==> ApplyAll(db, DeleteAll(tables, cutoff))[t] == KeepFrom(db[t], cutoff)
    ensures forall t :: t in db && t !in tables ==> ApplyAll(db, DeleteAll(tables, cutoff))[t] == db[t]
    decreases |tables|
  {
    if |tables| > 0 {
      var stmts := DeleteAll(tables, cutoff);
      assert stmts[1..] == DeleteAll(tables[1..], cutoff);
      var db1 := Apply(db, stmts[0]);
      DeleteAllPrunes(db1, tables[1..], cutoff);
      if tables[0] in db {
        KeepFromIdempotent(db[tables[0]], cutoff);
      }
      forall t | t in db && t in tables
        ensures ApplyAll(db, stmts)[t] == KeepFrom(db[t], cutoff)
      {
        if t != tables[0] {
          assert t in tables[1..];
        }
      }
    }
  }

  lemma {:induction false} ApplyAllAppend(db: Db, a: seq<Statement>, b: seq<Statement>)
    ensures ApplyAll(db, a + b) == ApplyAll(ApplyAll(db, a), b)
    decreases |a|
  {
    if |a| == 0 {
      assert a + b == b;
    } else {
      assert (a + b)[0] == a[0];
      assert (a + b)[1..] == a[1..] + b;
      ApplyAllAppend(Apply(db, a[0]), a[1..], b);
    }
  }

  /** Statements other than deletes leave every table as it was. */
  lemma {:induction false} QueriesChangeNothing(db: Db, stmts: seq<Statement>)
    requires forall i :: 0 <= i < |stmts| ==> !stmts[i].DeleteBefore?
    ensures ApplyAll(db, stmts) == db
    decreases |stmts|
  {
    if |stmts| > 0 {
      QueriesChangeNothing(db, stmts[1..]);
    }
  }

  /** After a deleting round the base table and every view hold exactly
      their rows at or after the one cutoff, so no view keeps data older
      than the base table and none is pruned past it; other tables are
      untouched. */
  lemma {:induction false} RoundKeepsTablesConsistent(cfg: MonitorConfig, resp: Responses, db: Db)
    requires 0.0 <= cfg.deletePercentage
    requires ShouldDelete(cfg, resp.freeSpace) && DeleteOffset(resp.rowCount, cfg.deletePercentage) > 0
    ensures var after := ApplyAll(db, MonitorMemory(cfg, resp));
            && after.Keys == db.Keys
            && (forall t :: t in db && t in Tables(cfg) ==> after[t] == KeepFrom(db[t], resp.timeAtOffset))
            && (forall t :: t in db && t !in Tables(cfg) ==> after[t] == db[t])
  {
    var offset := DeleteOffset(resp.rowCount, cfg.deletePercentage);
    var queries := [SelectDisks, SelectParts, CountRows(cfg.tableName), SelectTimeAtOffset(cfg.tableName, offset)];
    var deletes := DeleteAll(Tables(cfg), resp.timeAtOffset);
    assert MonitorMemory(cfg, resp) == queries + deletes;
    ApplyAllAppend(db, queries, deletes);
    QueriesChangeNothing(db, queries);
    DeleteAllPrunes(db, Tables(cfg), resp.timeAtOffset);
  }

  // ---------------------------------------------------------------------
  // The statements as SQL text, and the two monitoring tests

  /** The SQL text of a statement; the time layout of the cutoff is a
      parameter. */
  function Render(stmt: Statement, formatTime: Timestamp -> string): string {
    match stmt
    case SelectDisks => "SELECT free_space, total_space FROM system.disks"
    case SelectParts => "SELECT SUM(bytes) FROM system.parts"
    case CountRows(t) => "SELECT COUNT() FROM " + t
    case SelectTimeAtOffset(t, o) => "SELECT timeInserted FROM " + t + " LIMIT 1 OFFSET " + NatToString(o)
    case DeleteBefore(t, c) => "ALTER TABLE " + t + " DELETE WHERE timeInserted < toDateTime('" + formatTime(c) + "')"
  }

  function RenderAll(stmts: seq<Statement>, formatTime: Timestamp -> string): (sql: seq<string>)
    ensures |sql| == |stmts|
    ensures forall i :: 0 <= i < |stmts| ==> sql[i] == Render(stmts[i], formatTime)
  {
    seq(|stmts|, i requires 0 <= i < |stmts| => Render(stmts[i], formatTime))
  }

  const TestConfig := MonitorConfig("flows", ["flows_pod_view", "flows_node_view", "flows_policy_view"], 10, 0.5, 0.5)

  /** `TestMonitorMemoryWithDeletion`: 4 of 10 bytes free and 10 rows give
      exactly the expected statement sequence, in order. */
  lemma MonitorWithDeletionScenario(inserted: Timestamp, formatTime: Timestamp -> string)
    ensures RenderAll(MonitorMemory(TestConfig, Responses(4, 10, 5, 10, inserted)), formatTime) ==
      [ "SELECT free_space, total_space FROM system.disks",
        "SELECT SUM(bytes) FROM system.parts",
        "SELECT COUNT() FROM " + "flows",
        "SELECT timeInserted FROM " + "flows" + " LIMIT 1 OFFSET " + "5",
        "ALTER TABLE " + "flows" + " DELETE WHERE timeInserted < toDateTime('" + formatTime(inserted) + "')",
        "ALTER TABLE " + "flows_pod_view" + " DELETE WHERE timeInserted < toDateTime('" + formatTime(inserted) + "')",
        "ALTER TABLE " + "flows_node_view" + " DELETE WHERE timeInserted < toDateTime('" + formatTime(inserted) + "')",
        "ALTER TABLE " + "flows_policy_view" + " DELETE WHERE timeInserted < toDateTime('" + formatTime(inserted) + "')" ]
  {
    ScenarioStatements(inserted);
    var stmts := [SelectDisks, SelectParts, CountRows("flows"), SelectTimeAtOffset("flows", 5),
                  DeleteBefore("flows", inserted), DeleteBefore("flows_pod_view", inserted),
                  DeleteBefore("flows_node_view", inserted), DeleteBefore("flows_policy_view", inserted)];
    var sql := RenderAll(stmts, formatTime);
    assert NatToString(5) == "5";
  }

  /** The statements of the deleting test round, before rendering. */
  lemma ScenarioStatements(inserted: Timestamp)
    ensures MonitorMemory(TestConfig, Responses(4, 10, 5, 10, inserted)) ==
            [SelectDisks, SelectParts, CountRows("flows"), SelectTimeAtOffset("flows", 5),
             DeleteBefore("flows", inserted), DeleteBefore("flows_pod_view", inserted),
             DeleteBefore("flows_node_view", inserted), DeleteBefore("flows_policy_view", inserted)]
  {
    assert DeleteOffset(10, 0.5) == 5;
    var stmts := MonitorMemory(TestConfig, Responses(4, 10, 5, 10, inserted));
    assert stmts == [SelectDisks, SelectParts, CountRows("flows"), SelectTimeAtOffset("flows", 5)]
                    + DeleteAll(Tables(TestConfig), inserted);
  }

  /** `TestMonitorMemoryWithoutDeletion`: 6 of 10 bytes free issues only
      the disk and parts queries, whatever the tables hold. */
  lemma MonitorWithoutDeletionScenario(cfg: MonitorConfig, resp: Responses)
    requires cfg.allocatedSpace == 10 && cfg.threshold == 0.5 && cfg.deletePercentage == 0.5
    requires resp.freeSpace == 6
    ensures MonitorMemory(cfg, resp) == [SelectDisks, SelectParts]
  {
  }
}

=== FILE: quantity.dfy ===
/** The Kubernetes quantity pattern the start command checks resource
    flags against, `^([+-]?[0-9.]+)([eEinumkKMGTP]*[-+]?[0-9]*)$`.
    `QuantityForm` states the pattern's language as nested splits of the
    string; `MatchesQuantity` is a left-to-right recogniser with one greedy
    scan per part; the two agree on every string. */
module Quantity {
  import opened Text
  import opened Decimal

  predicate IsSign(c: char) {
    c == '+' || c == '-'
  }

  /** `[0-9.]` */
  predicate IsMantissaChar(c: char) {
    IsDigit(c) || c == '.'
  }

  /** `[eEinumkKMGTP]` */
  predicate IsSuffixLetter(c: char) {
    c == 'e' || c == 'E' || c == 'i' || c == 'n' || c == 'u' || c == 'm' ||
    c == 'k' || c == 'K' || c == 'M' || c == 'G' || c == 'T' || c == 'P'
  }

  // ---------------------------------------------------------------------
  // The pattern's language

  /** `[-+]?[0-9]*` */
  ghost predicate ExponentForm(v: string) {
    AllSat(v, IsDigit) || (|v| > 0 && IsSign(v[0]) && AllSat(v[1..], IsDigit))
  }

  /** `[eEinumkKMGTP]*[-+]?[0-9]*` */
  ghost predicate SuffixForm(u: string) {
    exists c :: 0 <= c <= |u| && AllSat(u[..c], IsSuffixLetter) && ExponentForm(u[c..])
  }

  /** `[0-9.]+` followed by the suffix group. */
  ghost predicate BodyForm(t: string) {
    exists b :: 1 <= b <= |t| && AllSat(t[..b], IsMantissaChar) && SuffixForm(t[b..])
  }

  /** The whole anchored pattern, with its optional leading sign. */
  ghost predicate QuantityForm(s: string) {
    (|s| > 0 && IsSign(s[0]) && BodyForm(s[1..])) || BodyForm(s)
  }

  // ---------------------------------------------------------------------
  // The recogniser

  function MatchExponent(v: string): bool {
    var d := if |v| > 0 && IsSign(v[0]) then 1 else 0;
    Span(v[d..], IsDigit) == |v| - d
  }

  function MatchSuffix(u: string): bool {
    MatchExponent(u[Span(u, IsSuffixLetter)..])
  }

  function MatchBody(t: string): bool {
    var b := Span(t, IsMantissaChar);
    b >= 1 && MatchSuffix(t[b..])
  }

  /** `regexp.MatchString(k8sQuantitiesReg, s)`. */
  function MatchesQuantity(s: string): bool {
    if |s| > 0 && IsSign(s[0]) then MatchBody(s[1..]) else MatchBody(s)
  }

  // ---------------------------------------------------------------------
  // The recogniser decides the pattern

  lemma SpanIsWhole(w: string, p: char -> bool)
    ensures Span(w, p) == |w| <==> AllSat(w, p)
  {
    assert w[..|w|] == w;
  }

  lemma PrefixFacts(w: string, k: nat, p: char -> bool)
    requires k <= |w| && AllSat(w[..k], p)
    ensures forall i :: 0 <= i < k ==> p(w[i])
  {
    forall i | 0 <= i < k
      ensures p(w[i])
    {
      assert w[..k][i] == w[i];
    }
  }

  /** A non-empty exponent part opens with a digit or a sign. */
  lemma ExponentHead(v: string)
    requires ExponentForm(v) && |v| > 0
    ensures IsDigit(v[0]) || IsSign(v[0])
  {
  }

  /** A body opens with a mantissa character. */
  lemma BodyHead(t: string)
    requires BodyForm(t)
    ensures |t| > 0 && IsMantissaChar(t[0])
  {
    var b :| 1 <= b <= |t| && AllSat(t[..b], IsMantissaChar) && SuffixForm(t[b..]);
    PrefixFacts(t, b, IsMantissaChar);
  }

  lemma ExponentEquivalence(v: string)
    ensures MatchExponent(v) <==> ExponentForm(v)
  {
    var d := if |v| > 0 && IsSign(v[0]) then 1 else 0;
    SpanIsWhole(v[d..], IsDigit);
    assert v[0..] == v;
  }

  lemma SuffixEquivalence(u: string)
    ensures MatchSuffix(u) <==> SuffixForm(u)
  {
    var c := Span(u, IsSuffixLetter);
    ExponentEquivalence(u[c..]);
    if SuffixForm(u) {
      var c' :| 0 <= c' <= |u| && AllSat(u[..c'], IsSuffixLetter) && ExponentForm(u[c'..]);
      // Letters can neither open the exponent part nor stop the letter run,
      // so every split the pattern allows is the greedy one.
      PrefixFacts(u, c, IsSuffixLetter);
      PrefixFacts(u, c', IsSuffixLetter);
      if c' < |u| {
        ExponentHead(u[c'..]);
        assert u[c'..][0] == u[c'];
      }
      assert c' == c;
    }
  }

  lemma BodyEquivalence(t: string)
    ensures MatchBody(t) <==> BodyForm(t)
  {
    var b := Span(t, IsMantissaChar);
    SuffixEquivalence(t[b..]);
    if BodyForm(t) {
      var b' :| 1 <= b' <= |t| && AllSat(t[..b'], IsMantissaChar) && SuffixForm(t[b'..]);
      PrefixFacts(t, b, IsMantissaChar);
      PrefixFacts(t, b', IsMantissaChar);
      assert b' <= b;
      if b' < b {
        // The mantissa characters past the split can only be exponent
        // digits, so the rest is all digits and the greedy scan reaches the end.
        var u := t[b'..];
        var c :| 0 <= c <= |u| && AllSat(u[..c], IsSuffixLetter) && ExponentForm(u[c..]);
        assert u[0] == t[b'];
        PrefixFacts(u, c, IsSuffixLetter);
        assert c == 0;
        assert u[0..] == u;
        assert AllSat(u, IsDigit);
        assert AllSat(t, IsMantissaChar) by {
          forall i | 0 <= i < |t|
            ensures IsMantissaChar(t[i])
          {
            if i >= b' { assert u[i - b'] == t[i]; }
          }
        }
        SpanIsWhole(t, IsMantissaChar);
        assert t[b..] == [];
        assert MatchExponent([]);
      }
    }
  }

  /** The recogniser accepts exactly the strings the pattern matches. */
  lemma QuantityEquivalence(s: string)
    ensures MatchesQuantity(s) <==> QuantityForm(s)
  {
    BodyEquivalence(s);
    if |s| > 0 {
      BodyEquivalence(s[1..]);
      // A sign is not a mantissa character, so a signed string has only
      // the signed reading.
      if BodyForm(s) {
        BodyHead(s);
      }
    }
  }

  /** The default resource values pass, and the empty string does not. */
  lemma DefaultQuantitiesMatch()
    ensures MatchesQuantity("200m")
    ensures MatchesQuantity("512M")
    ensures !MatchesQuantity("")
  {
    assert Span("200m", IsMantissaChar) == 3 by {
      assert "200m"[3..] == "m";
      assert Span("m", IsMantissaChar) == 0;
    }
    assert Span("m", IsSuffixLetter) == 1;
    assert "200m"[3..] == "m" && "m"[1..] == [];
    assert Span("512M", IsMantissaChar) == 3 by {
      assert "512M"[3..] == "M";
      assert Span("M", IsMantissaChar) == 0;
    }
    assert Span("M", IsSuffixLetter) == 1;
    assert "512M"[3..] == "M" && "M"[1..] == [];
  }
}

=== FILE: result.dfy ===
/** `theiactl policyreco result` (pkg/theiactl/commands/result.go): fetch a
    job's recommended policies from ClickHouse, either through a given
    endpoint or through a port forward to the ClickHouse Service's "tcp"
    port. Outside answers are in `ResultEnv`: the UUID and URL parsers as
    predicates, the cluster's listings, whether a `kubectl port-forward`
    with given arguments starts, the Secret's data, the connection
    attempts, and the `recommendations` table keyed by id. */
module ResultJob {
  import opened Results
  import opened Decimal
  import opened Text
  import ClusterUtils
  import Retry

  const ClickHouseService := "clickhouse-clickhouse"
  const LocalEndpoint := "tcp://localhost:"

  // ---------------------------------------------------------------------
  // Steps

  /** getClickHouseServicePort: the last "tcp" entry of the ClickHouse
      Service; a failed lookup or a zero port is an error. */
  function GetClickHouseServicePort(service: Option<seq<ClusterUtils.ServicePort>>): (r: Result<int, ClusterUtils.ClusterError>)
    ensures r.Ok? <==> service.Some? && ClusterUtils.LastTcpPort(service.value) != 0
    ensures r.Ok? ==> r.value == ClusterUtils.LastTcpPort(service.value) && r.value != 0
    ensures service.None? ==> r == Err(ClusterUtils.ServiceLookupFailed(ClickHouseService))
  {
    match service
    case None => Err(ClusterUtils.ServiceLookupFailed(ClickHouseService))
    case Some(ports) =>
      var port := ClusterUtils.LastTcpPort(ports);
      if port == 0 then Err(ClusterUtils.ServicePortMissing(ClickHouseService)) else Ok(port)
  }

  /** getClickHouseSecret: both keys are required; their values come back
      unchanged. */
  function GetClickHouseSecret(secret: Option<map<string, string>>): (r: Result<(string, string), ClusterUtils.ClusterError>)
    ensures r.Ok? <==> secret.Some? && "username" in secret.value && "password" in secret.value
    ensures r.Ok? ==> r.value == (secret.value["username"], secret.value["password"])
    ensures secret.None? ==> r == Err(ClusterUtils.SecretLookupFailed)
    ensures secret.Some? && "username" !in secret.value ==> r == Err(ClusterUtils.UsernameMissing)
    ensures secret.Some? && "username" in secret.value && "password" !in secret.value ==>
              r == Err(ClusterUtils.PasswordMissing)
  {
    match secret
    case None => Err(ClusterUtils.SecretLookupFailed)
    case Some(data) =>
      if "username" !in data then Err(ClusterUtils.UsernameMissing)
      else if "password" !in data then Err(ClusterUtils.PasswordMissing)
      else Ok((data["username"], data["password"]))
  }

  /** `tcp://localhost:<port>` */
  function DefaultEndpoint(port: int): (e: string)
    ensures LocalEndpoint <= e && |e| > |LocalEndpoint|
  {
    LocalEndpoint + IntToString(port)
  }

  /** The port can be read back from the default endpoint. */
  lemma DefaultEndpointPort(port: int)
    ensures ParseInt(DefaultEndpoint(port)[|LocalEndpoint|..]) == Some(port)
  {
    assert DefaultEndpoint(port)[|LocalEndpoint|..] == IntToString(port);
    ParseIntOfInt(port);
  }

  /** `kubectl port-forward service/clickhouse-clickhouse -n flow-visibility <port>:<port>` */
  function PortForwardArgs(port: int): seq<string> {
    ["port-forward", "service/" + ClickHouseService, "-n", "flow-visibility",
     IntToString(port) + ":" + IntToString(port)]
  }

  // ---------------------------------------------------------------------
  // The command

  datatype ResultError =
    | InvalidId
    | InvalidEndpoint
    | ClientUnavailable
    | Cluster(cause: ClusterUtils.ClusterError)
    | PortForwardFailed
    | QueryFailed(id: string)

  datatype ResultEnv = ResultEnv(
    validId: string -> bool,
    validUrl: string -> bool,
    clientOk: bool,
    clickHousePods: Option<nat>,
    service: Option<seq<ClusterUtils.ServicePort>>,
    portForward: seq<string> -> bool,
    secret: Option<map<string, string>>,
    connectAttempts: seq<bool>,
    recommendations: string -> Option<string>)

  /** The data source name the command connects with, and the yamls it prints. */
  datatype ResultReport = ResultReport(dataSourceName: string, yamls: string)

  /** The endpoint to connect to: the given one, or the local end of a
      port forward to the ClickHouse Service. */
  function ResolveEndpoint(endpoint: string, env: ResultEnv): (r: Result<string, ResultError>)
    ensures endpoint != "" ==> r == Ok(endpoint)
    ensures endpoint == "" ==>
              (r.Ok? <==> env.service.Some? && ClusterUtils.LastTcpPort(env.service.value) != 0 &&
                          env.portForward(PortForwardArgs(ClusterUtils.LastTcpPort(env.service.value))))
    ensures endpoint == "" && GetClickHouseServicePort(env.service).Err? ==>
              r == Err(Cluster(GetClickHouseServicePort(env.service).error))
    ensures endpoint == "" && GetClickHouseServicePort(env.service).Ok? &&
            !env.portForward(PortForwardArgs(GetClickHouseServicePort(env.service).value)) ==>
              r == Err(PortForwardFailed)
    ensures endpoint == "" && r.Ok? ==>
              env.service.Some? && ClusterUtils.LastTcpPort(env.service.value) != 0 &&
              env.portForward(PortForwardArgs(ClusterUtils.LastTcpPort(env.service.value))) &&
              r.value == DefaultEndpoint(ClusterUtils.LastTcpPort(env.service.value))
    ensures endpoint == "" && r.Ok? ==>
              ParseInt(r.value[|LocalEndpoint|..]) == Some(ClusterUtils.LastTcpPort(env.service.value))
  {
    if endpoint != "" then Ok(endpoint)
    else
      match GetClickHouseServicePort(env.service)
      case Err(e) => Err(Cluster(e))
      case Ok(port) =>
        if !env.portForward(PortForwardArgs(port)) then Err(PortForwardFailed)
        else
          DefaultEndpointPort(port);
          Ok(DefaultEndpoint(port))
  }

  /** The checks before the endpoint is resolved all pass. */
  predicate Admitted(id: string, endpoint: string, env: ResultEnv) {
    env.validId(id) && (endpoint == "" || env.validUrl(endpoint)) && env.clientOk &&
    ClusterUtils.CheckClickHousePod(env.clickHousePods).Pass?
  }

  function FetchResult(id: string, endpoint: string, env: ResultEnv): (r: Result<ResultReport, ResultError>)
    ensures !env.validId(id) ==> r == Err(InvalidId)
    ensures env.validId(id) && endpoint != "" && !env.validUrl(endpoint) ==> r == Err(InvalidEndpoint)
    ensures r.Ok? <==>
              Admitted(id, endpoint, env) && ResolveEndpoint(endpoint, env).Ok? &&
              GetClickHouseSecret(env.secret).Ok? &&
              (exists i :: 0 <= i < |env.connectAttempts| && env.connectAttempts[i]) &&
              env.recommendations(id).Some?
    ensures Admitted(id, endpoint, env) && ResolveEndpoint(endpoint, env).Ok? &&
            GetClickHouseSecret(env.secret).Err? ==>
              r == Err(Cluster(GetClickHouseSecret(env.secret).error))
    ensures r.Ok? ==>
              var (username, password) := GetClickHouseSecret(env.secret).value;
              r.value.dataSourceName == ClusterUtils.Dsn(ResolveEndpoint(endpoint, env).value, username, password) &&
              r.value.yamls == env.recommendations(id).value
    ensures r.Ok? && endpoint != "" ==> endpoint <= r.value.dataSourceName
  {
    if !env.validId(id) then Err(InvalidId)
    else if endpoint != "" && !env.validUrl(endpoint) then Err(InvalidEndpoint)
    else if !env.clientOk then Err(ClientUnavailable)
    else
      match ClusterUtils.CheckClickHousePod(env.clickHousePods)
      case Fail(e) => Err(Cluster(e))
      case Pass =>
        match ResolveEndpoint(endpoint, env)
        case Err(e) => Err(e)
        case Ok(target) =>
          match GetClickHouseSecret(env.secret)
          case Err(e) => Err(Cluster(e))
          case Ok((username, password)) =>
            var dsn := ClusterUtils.Dsn(target, username, password);
            if !Retry.PollFlags(env.connectAttempts) then Err(Cluster(ClusterUtils.ConnectTimeout))
            else
              match env.recommendations(id)
              case None => Err(QueryFailed(id))
              case Some(yamls) => Ok(ResultReport(dsn, yamls))
  }
}

=== FILE: results.dfy ===
/** Failure-carrying values shared by every component: Go's `(T, error)`
    pairs become `Result`, a bare `error` return becomes `Status`. */
module Results {

  datatype Option<+T> = None | Some(value: T)

  datatype Result<+T, +E> = Ok(value: T) | Err(error: E)

  /** `Pass` is a nil error, `Fail(e)` a non-nil one. */
  datatype Status<+E> = Pass | Fail(error: E)
}

=== FILE: retry.dfy ===
/** `wait.PollImmediate` with the timing reduced away: a poll is the finite
    sequence of attempt outcomes that fit before the timeout. An attempt
    either stops the poll with a value (`Some`) or asks for another try
    (`None`); when every attempt asks again, the poll times out. */
module Retry {
  import opened Results

  /** Index of the first attempt that stops the poll, or the number of
      attempts when none does. */
  function FirstStop<T>(attempts: seq<Option<T>>): (k: nat)
    ensures k <= |attempts|
    ensures forall j :: 0 <= j < k ==> attempts[j].None?
    ensures k < |attempts| ==> attempts[k].Some?
  {
    if |attempts| == 0 || attempts[0].Some? then 0 else 1 + FirstStop(attempts[1..])
  }

  /** The value of the first stopping attempt; `None` is the timeout. */
  function Poll<T>(attempts: seq<Option<T>>): (r: Option<T>)
    ensures r.Some? <==> exists i :: 0 <= i < |attempts| && attempts[i].Some?
    ensures r.Some? ==> exists i :: 0 <= i < |attempts| && attempts[i] == r
                                    && forall j :: 0 <= j < i ==> attempts[j].None?
    ensures forall i :: 0 <= i < |attempts| && attempts[i].Some? && (forall j :: 0 <= j < i ==> attempts[j].None?) ==>
              r == attempts[i]
  {
    var k := FirstStop(attempts);
    if k < |attempts| then attempts[k] else None
  }

  /** A poll whose attempts are plain success flags. */
  function PollFlags(attempts: seq<bool>): (ok: bool)
    ensures ok <==> exists i :: 0 <= i < |attempts| && attempts[i]
  {
    var tries := seq(|attempts|, i requires 0 <= i < |attempts| => if attempts[i] then Some(()) else None);
    assert forall i :: 0 <= i < |attempts| ==> (tries[i].Some? <==> attempts[i]);
    Poll(tries).Some?
  }

  /** The attempt outcomes a poll sees when each raw outcome is classified
      by the poll's condition function. */
  function Classify<A, T>(outcomes: seq<A>, condition: A -> Option<T>): (r: seq<Option<T>>)
    ensures |r| == |outcomes|
    ensures forall i :: 0 <= i < |outcomes| ==> r[i] == condition(outcomes[i])
  {
    seq(|outcomes|, i requires 0 <= i < |outcomes| => condition(outcomes[i]))
  }
}

=== FILE: start.dfy ===
/** `theiactl policyreco start` (pkg/theiactl/commands/start.go): the flag
    checks in the order the command makes them, the argument list handed
    to the recommendation job, and the SparkApplication's name and
    resources. Flag values arrive already typed; `time.Parse` and
    `json.Unmarshal` are the validity oracles in `Oracles`; the cluster's
    answers are in `Cluster`; the fresh job id is a parameter. */
module StartJob {
  import opened Results
  import opened Decimal
  import Quantity
  import ClusterUtils

  datatype StartFlags = StartFlags(
    recoType: string,
    limit: int,
    option: int,
    startTime: string,
    endTime: string,
    nsAllowList: string,
    rmLabels: bool,
    toServices: bool,
    executorInstances: int,
    driverCoreRequest: string,
    driverMemory: string,
    executorCoreRequest: string,
    executorMemory: string)

  /** The values the command registers for flags left unset. */
  const DefaultFlags := StartFlags("initial", 0, 1, "", "", "", true, true, 1, "200m", "512M", "200m", "512M")

  /** `validTime` stands for parsing with layout "2006-01-02 15:04:05";
      `validNamespaceList` for decoding a JSON list of strings. */
  datatype Oracles = Oracles(validTime: string -> bool, validNamespaceList: string -> bool)

  /** Whether a client could be built, the two pod listings the pre-check
      makes, and whether the SparkApplication POST succeeded. */
  datatype Cluster = Cluster(
    clientOk: bool,
    sparkOperatorPods: Option<nat>,
    clickHousePods: Option<nat>,
    submitOk: bool)

  datatype StartError =
    | InvalidType
    | InvalidLimit
    | InvalidOption
    | InvalidStartTime
    | InvalidEndTime
    | InvalidNsAllowList
    | InvalidExecutorInstances
    | InvalidQuantity(flag: string)
    | ClientUnavailable
    | PreCheck(cause: ClusterUtils.ClusterError)
    | SubmitFailed

  /** The parts of the SparkApplication this model follows. */
  datatype SparkJob = SparkJob(
    name: string,
    arguments: seq<string>,
    executorInstances: nat,
    driverCoreRequest: string,
    driverMemory: string,
    executorCoreRequest: string,
    executorMemory: string)

  // ---------------------------------------------------------------------
  // Job arguments

  /** The recommendation job's parameters; an absent optional flag is `None`. */
  datatype JobArgs = JobArgs(
    recoType: string,
    limit: nat,
    option: nat,
    startTime: Option<string>,
    endTime: Option<string>,
    nsAllowList: Option<string>,
    rmLabels: bool,
    toServices: bool,
    id: string)

  /** strconv.FormatBool */
  function FormatBool(b: bool): string {
    if b then "true" else "false"
  }

  function ParseBool(s: string): (r: Option<bool>)
    ensures r.Some? ==> FormatBool(r.value) == s
  {
    if s == "true" then Some(true) else if s == "false" then Some(false) else None
  }

  lemma ParseBoolOfBool(b: bool)
    ensures ParseBool(FormatBool(b)) == Some(b)
  {
  }

  function OptionalArg(flag: string, value: Option<string>): seq<string> {
    match value
    case None => []
    case Some(v) => [flag, v]
  }

  /** The argument list, flag then value: type, limit, option, the three
      optional filters when present, then rm_labels, to_services, id. */
  function SerializeArgs(a: JobArgs): (args: seq<string>)
    ensures |args| == 12 + |OptionalArg("--start_time", a.startTime)| + |OptionalArg("--end_time", a.endTime)| +
                           |OptionalArg("--ns_allow_list", a.nsAllowList)|
    ensures |args| % 2 == 0
    ensures args[0] == "--type" && args[1] == a.recoType
    ensures args[2] == "--limit" && args[3] == NatToString(a.limit)
    ensures args[4] == "--option" && args[5] == NatToString(a.option)
    ensures args[|args| - 6..] == Tail(a)
  {
    ["--type", a.recoType, "--limit", NatToString(a.limit), "--option", NatToString(a.option)]
    + OptionalArg("--start_time", a.startTime)
    + OptionalArg("--end_time", a.endTime)
    + OptionalArg("--ns_allow_list", a.nsAllowList)
    + Tail(a)
  }

  function TakeOptional(args: seq<string>, flag: string): (Option<string>, seq<string>) {
    if |args| >= 2 && args[0] == flag then (Some(args[1]), args[2..]) else (None, args)
  }

  const RmLabelsFlag := "--rm_labels"
  const ToServicesFlag := "--to_services"
  const IdFlag := "--id"

  /** The three mandatory trailing pairs. */
  function ParseTail(rest: seq<string>): Option<(bool, bool, string)> {
    if |rest| == 6 && rest[0] == RmLabelsFlag && rest[2] == ToServicesFlag && rest[4] == IdFlag then
      match ParseBool(rest[1])
      case None => None
      case Some(rmLabels) =>
        match ParseBool(rest[3])
        case None => None
        case Some(toServices) => Some((rmLabels, toServices, rest[5]))
    else None
  }

  /** Everything after the option value: the optional filters, then the tail. */
  function ParseFilters(recoType: string, limit: nat, option: nat, rest: seq<string>): Option<JobArgs> {
    var (startTime, r1) := TakeOptional(rest, "--start_time");
    var (endTime, r2) := TakeOptional(r1, "--end_time");
    var (nsAllowList, r3) := TakeOptional(r2, "--ns_allow_list");
    match ParseTail(r3)
    case Some((rmLabels, toServices, id)) =>
      Some(JobArgs(recoType, limit, option, startTime, endTime, nsAllowList, rmLabels, toServices, id))
    case None => None
  }

  /** Reads an argument list back into the parameters it carries. */
  function ParseArgs(args: seq<string>): Option<JobArgs> {
    if |args| < 6 || args[0] != "--type" || args[2] != "--limit" || args[4] != "--option" then None
    else
      match ParseNat(args[3])
      case None => None
      case Some(limit) =>
        match ParseNat(args[5])
        case None => None
        case Some(option) => ParseFilters(args[1], limit, option, args[6..])
  }

  lemma TakeOptionalArg(flag: string, value: Option<string>, rest: seq<string>)
    requires |rest| >= 1 && rest[0] != flag
    ensures TakeOptional(OptionalArg(flag, value) + rest, flag) == (value, rest)
  {
    if value.Some? {
      assert (OptionalArg(flag, value) + rest)[2..] == rest;
    } else {
      assert OptionalArg(flag, value) + rest == rest;
    }
  }

  function Tail(a: JobArgs): seq<string> {
    [RmLabelsFlag, FormatBool(a.rmLabels), ToServicesFlag, FormatBool(a.toServices), IdFlag, a.id]
  }

  lemma ParseTailOfTail(a: JobArgs)
    ensures ParseTail(Tail(a)) == Some((a.rmLabels, a.toServices, a.id))
  {
    ParseBoolOfBool(a.rmLabels);
    ParseBoolOfBool(a.toServices);
  }

  lemma ParseFiltersOfFilters(a: JobArgs)
    ensures ParseFilters(a.recoType, a.limit, a.option,
                         OptionalArg("--start_time", a.startTime) + (OptionalArg("--end_time", a.endTime) +
                         (OptionalArg("--ns_allow_list", a.nsAllowList) + Tail(a)))) == Some(a)
  {
    var o2 := OptionalArg("--end_time", a.endTime);
    var o3 := OptionalArg("--ns_allow_list", a.nsAllowList);
    var tail := Tail(a);
    assert |(o2 + (o3 + tail))[0]| != |"--start_time"|;
    TakeOptionalArg("--start_time", a.startTime, o2 + (o3 + tail));
    assert |(o3 + tail)[0]| != |"--end_time"|;
    TakeOptionalArg("--end_time", a.endTime, o3 + tail);
    assert |tail[0]| != |"--ns_allow_list"|;
    TakeOptionalArg("--ns_allow_list", a.nsAllowList, tail);
    ParseTailOfTail(a);
  }

  /** Every parameter is recovered from the argument list. */
  lemma ArgsRoundTrip(a: JobArgs)
    ensures ParseArgs(SerializeArgs(a)) == Some(a)
  {
    var args := SerializeArgs(a);
    ArgsShape(a);
    ParseNatOfNat(a.limit);
    ParseNatOfNat(a.option);
    ParseFiltersOfFilters(a);
  }

  lemma ArgsShape(a: JobArgs)
    ensures SerializeArgs(a)[..6] ==
            ["--type", a.recoType, "--limit", NatToString(a.limit), "--option", NatToString(a.option)]
    ensures SerializeArgs(a)[6..] ==
            OptionalArg("--start_time", a.startTime) + (OptionalArg("--end_time", a.endTime) +
            (OptionalArg("--ns_allow_list", a.nsAllowList) + Tail(a)))
  {
    var head := ["--type", a.recoType, "--limit", NatToString(a.limit), "--option", NatToString(a.option)];
    var filters := OptionalArg("--start_time", a.startTime) + (OptionalArg("--end_time", a.endTime) +
                   (OptionalArg("--ns_allow_list", a.nsAllowList) + Tail(a)));
    assert SerializeArgs(a) == head + filters;
  }

  // ---------------------------------------------------------------------
  // Flag checks

  predicate ValidType(recoType: string) {
    recoType == "initial" || recoType == "subsequent"
  }

  /** An optional filter passes when it is empty or its oracle accepts it. */
  predicate ValidOptional(value: string, accepts: string -> bool) {
    value == "" || accepts(value)
  }

  /** Every check before the resource strings passes. */
  predicate ScalarsValid(f: StartFlags, o: Oracles) {
    ValidType(f.recoType) && f.limit >= 0 && 1 <= f.option <= 3 &&
    ValidOptional(f.startTime, o.validTime) && ValidOptional(f.endTime, o.validTime) &&
    ValidOptional(f.nsAllowList, o.validNamespaceList) && f.executorInstances >= 0
  }

  /** The four resource strings are quantities. */
  predicate QuantitiesValid(f: StartFlags) {
    Quantity.MatchesQuantity(f.driverCoreRequest) && Quantity.MatchesQuantity(f.driverMemory) &&
    Quantity.MatchesQuantity(f.executorCoreRequest) && Quantity.MatchesQuantity(f.executorMemory)
  }

  /** The errors that come from the flags rather than the cluster. */
  predicate IsFlagError(e: StartError) {
    !(e.ClientUnavailable? || e.PreCheck? || e.SubmitFailed?)
  }

  /** Each check in the command's order; the first failure is reported. */
  function CheckFlags(f: StartFlags, o: Oracles): (r: Status<StartError>)
    ensures r == Fail(InvalidType) <==> !ValidType(f.recoType)
    ensures r == Fail(InvalidLimit) <==> ValidType(f.recoType) && f.limit < 0
    ensures r == Fail(InvalidOption) <==> ValidType(f.recoType) && f.limit >= 0 && !(1 <= f.option <= 3)
    ensures r == Fail(InvalidStartTime) <==>
              ValidType(f.recoType) && f.limit >= 0 && 1 <= f.option <= 3 &&
              !ValidOptional(f.startTime, o.validTime)
    ensures r == Fail(InvalidEndTime) <==>
              ValidType(f.recoType) && f.limit >= 0 && 1 <= f.option <= 3 &&
              ValidOptional(f.startTime, o.validTime) && !ValidOptional(f.endTime, o.validTime)
    ensures r == Fail(InvalidNsAllowList) <==>
              ValidType(f.recoType) && f.limit >= 0 && 1 <= f.option <= 3 &&
              ValidOptional(f.startTime, o.validTime) && ValidOptional(f.endTime, o.validTime) &&
              !ValidOptional(f.nsAllowList, o.validNamespaceList)
    ensures r == Fail(InvalidExecutorInstances) <==>
              ValidType(f.recoType) && f.limit >= 0 && 1 <= f.option <= 3 &&
              ValidOptional(f.startTime, o.validTime) && ValidOptional(f.endTime, o.validTime) &&
              ValidOptional(f.nsAllowList, o.validNamespaceList) && f.executorInstances < 0
    ensures r.Fail? && r.error.InvalidQuantity? ==> ScalarsValid(f, o) && r == CheckQuantities(f)
    ensures r.Pass? <==> ScalarsValid(f, o) && QuantitiesValid(f)
    ensures r.Fail? ==> IsFlagError(r.error)
  {
    if !ValidType(f.recoType) then Fail(InvalidType)
    else if f.limit < 0 then Fail(InvalidLimit)
    else if f.option < 1 || f.option > 3 then Fail(InvalidOption)
    else if f.startTime != "" && !o.validTime(f.startTime) then Fail(InvalidStartTime)
    else if f.endTime != "" && !o.validTime(f.endTime) then Fail(InvalidEndTime)
    else if f.nsAllowList != "" && !o.validNamespaceList(f.nsAllowList) then Fail(InvalidNsAllowList)
    else if f.executorInstances < 0 then Fail(InvalidExecutorInstances)
    else CheckQuantities(f)
  }

  /** The four resource checks, in order; the first string that is not a
      quantity names the error. */
  function CheckQuantities(f: StartFlags): (r: Status<StartError>)
    ensures r == Fail(InvalidQuantity("driver_core_request")) <==>
              !Quantity.MatchesQuantity(f.driverCoreRequest)
    ensures r == Fail(InvalidQuantity("driver_memory")) <==>
              Quantity.MatchesQuantity(f.driverCoreRequest) && !Quantity.MatchesQuantity(f.driverMemory)
    ensures r == Fail(InvalidQuantity("executor_core_request")) <==>
              Quantity.MatchesQuantity(f.driverCoreRequest) && Quantity.MatchesQuantity(f.driverMemory) &&
              !Quantity.MatchesQuantity(f.executorCoreRequest)
    ensures r == Fail(InvalidQuantity("executor_memory")) <==>
              Quantity.MatchesQuantity(f.driverCoreRequest) && Quantity.MatchesQuantity(f.driverMemory) &&
              Quantity.MatchesQuantity(f.executorCoreRequest) && !Quantity.MatchesQuantity(f.executorMemory)
    ensures r.Fail? ==> r.error.InvalidQuantity?
    ensures r.Pass? <==> QuantitiesValid(f)
  {
    if !Quantity.MatchesQuantity(f.driverCoreRequest) then Fail(InvalidQuantity("driver_core_request"))
    else if !Quantity.MatchesQuantity(f.driverMemory) then Fail(InvalidQuantity("driver_memory"))
    else if !Quantity.MatchesQuantity(f.executorCoreRequest) then Fail(InvalidQuantity("executor_core_request"))
    else if !Quantity.MatchesQuantity(f.executorMemory) then Fail(InvalidQuantity("executor_memory"))
    else Pass
  }

  function NonEmpty(s: string): Option<string> {
    if s == "" then None else Some(s)
  }

  /** The parameters the job receives for valid flags. */
  function ArgsOf(f: StartFlags, id: string): JobArgs
    requires f.limit >= 0 && f.option >= 1
  {
    JobArgs(f.recoType, f.limit, f.option, NonEmpty(f.startTime), NonEmpty(f.endTime),
            NonEmpty(f.nsAllowList), f.rmLabels, f.toServices, id)
  }

  /** The SparkApplication's name for a job id. */
  function JobName(id: string): (name: string)
    ensures "policy-reco-" <= name
    ensures |name| == |"policy-reco-"| + |id| && name[|"policy-reco-"|..] == id
  {
    "policy-reco-" + id
  }

  // ---------------------------------------------------------------------
  // The command

  /** The start command: the flag checks, then the client, the pre-check
      and the POST of the SparkApplication. */
  function Start(f: StartFlags, o: Oracles, cluster: Cluster, id: string): (r: Result<SparkJob, StartError>)
    ensures CheckFlags(f, o).Fail? ==> r == Err(CheckFlags(f, o).error)
    ensures r.Err? && !IsFlagError(r.error) ==> ScalarsValid(f, o) && QuantitiesValid(f)
    ensures r == Err(ClientUnavailable) <==> CheckFlags(f, o).Pass? && !cluster.clientOk
    ensures r.Ok? <==>
              ScalarsValid(f, o) && QuantitiesValid(f) && cluster.clientOk &&
              ClusterUtils.PolicyRecoPreCheck(cluster.sparkOperatorPods, cluster.clickHousePods).Pass? &&
              cluster.submitOk
    ensures r.Ok? ==> r.value.name == JobName(id) && ParseArgs(r.value.arguments) == Some(ArgsOf(f, id))
    ensures r.Ok? ==> r.value.arguments == SerializeArgs(ArgsOf(f, id))
    ensures r.Ok? ==> r.value.executorInstances == f.executorInstances &&
                      r.value.driverCoreRequest == f.driverCoreRequest && r.value.driverMemory == f.driverMemory &&
                      r.value.executorCoreRequest == f.executorCoreRequest && r.value.executorMemory == f.executorMemory
  {
    match CheckFlags(f, o)
    case Fail(e) => Err(e)
    case Pass =>
      if !cluster.clientOk then Err(ClientUnavailable)
      else
        match ClusterUtils.PolicyRecoPreCheck(cluster.sparkOperatorPods, cluster.clickHousePods)
        case Fail(e) => Err(PreCheck(e))
        case Pass =>
          if !cluster.submitOk then Err(SubmitFailed)
          else
            var args := ArgsOf(f, id);
            ArgsRoundTrip(args);
            Ok(SparkJob(JobName(id), SerializeArgs(args), f.executorInstances,
                        f.driverCoreRequest, f.driverMemory, f.executorCoreRequest, f.executorMemory))
  }

  /** With every flag at its default and a healthy cluster, the job starts
      with exactly the mandatory arguments and the default resources. */
  lemma DefaultsStart(o: Oracles, cluster: Cluster, id: string)
    requires cluster.clientOk && cluster.submitOk
    requires cluster.sparkOperatorPods.Some? && cluster.sparkOperatorPods.value >= 1
    ensures Start(DefaultFlags, o, cluster, id) ==
            Ok(SparkJob("policy-reco-" + id,
                        ["--type", "initial", "--limit", "0", "--option", "1",
                         "--rm_labels", "true", "--to_services", "true", "--id", id],
                        1, "200m", "512M", "200m", "512M"))
  {
    DefaultFlagsPass(o);
    DefaultArgs(id);
  }

  lemma DefaultFlagsPass(o: Oracles)
    ensures CheckFlags(DefaultFlags, o) == Pass
  {
    Quantity.DefaultQuantitiesMatch();
    assert ScalarsValid(DefaultFlags, o);
  }

  lemma DefaultArgs(id: string)
    ensures SerializeArgs(ArgsOf(DefaultFlags, id)) ==
            ["--type", "initial", "--limit", "0", "--option", "1",
             "--rm_labels", "true", "--to_services", "true", "--id", id]
  {
    assert NatToString(0) == "0";
    assert NatToString(1) == "1";
    var a := ArgsOf(DefaultFlags, id);
    assert a == JobArgs("initial", 0, 1, None, None, None, true, true, id);
  }
}

=== FILE: text.dfy ===
/** String scanning helpers: maximal spans of a character class, substring
    search, literal prefixes and Go's `strings.TrimSpace`. */
module Text {
  import opened Results

  predicate AllSat(s: string, p: char -> bool) {
    forall i :: 0 <= i < |s| ==> p(s[i])
  }

  /** Length of the longest prefix of `s` whose characters all satisfy `p`. */
  function Span(s: string, p: char -> bool): (k: nat)
    ensures k <= |s|
    ensures AllSat(s[..k], p)
    ensures k < |s| ==> !p(s[k])
  {
    if |s| == 0 || !p(s[0]) then 0 else 1 + Span(s[1..], p)
  }

  /** Length of the longest suffix of `s` whose characters all satisfy `p`. */
  function SpanBack(s: string, p: char -> bool): (k: nat)
    ensures k <= |s|
    ensures AllSat(s[|s| - k..], p)
    ensures k < |s| ==> !p(s[|s| - k - 1])
  {
    if |s| == 0 || !p(s[|s| - 1]) then 0
    else
      var init := s[..|s| - 1];
      var k := SpanBack(init, p);
      assert s[|s| - (k + 1)..] == init[|init| - k..] + [s[|s| - 1]];
      k + 1
  }

  /** A span stops exactly where a run of `p`-characters is followed by a
      character outside `p` (or by the end of the string). */
  lemma SpanOfConcat(a: string, rest: string, p: char -> bool)
    requires AllSat(a, p)
    requires |rest| == 0 || !p(rest[0])
    ensures Span(a + rest, p) == |a|
  {
    var s := a + rest;
    assert AllSat(s[..|a|], p) by { assert s[..|a|] == a; }
    assert |a| < |s| ==> s[|a|] == rest[0];
  }

  /** `strings.Contains`. */
  predicate Contains(s: string, sub: string) {
    exists i :: 0 <= i <= |s| && sub <= s[i..]
  }

  /** Strips the literal `lit` from the front of `s`, if it is there. */
  function Expect(s: string, lit: string): (r: Option<string>)
    ensures r.Some? <==> lit <= s
    ensures r.Some? ==> s == lit + r.value
  {
    if lit <= s then Some(s[|lit|..]) else None
  }

  lemma ExpectOfConcat(lit: string, rest: string)
    ensures Expect(lit + rest, lit) == Some(rest)
  {
    assert lit <= lit + rest;
    assert (lit + rest)[|lit|..] == rest;
  }

  /** `unicode.IsSpace`, the class `strings.TrimSpace` strips. */
  predicate IsSpace(c: char) {
    || c == ' ' || c == '\t' || c == '\n' || c == '\r'
    || c == '\U{000B}' || c == '\U{000C}' || c == '\U{0085}' || c == '\U{00A0}'
    || c == '\U{1680}' || ('\U{2000}' <= c <= '\U{200A}')
    || c == '\U{2028}' || c == '\U{2029}' || c == '\U{202F}'
    || c == '\U{205F}' || c == '\U{3000}'
  }

  /** `strings.TrimSpace`: the middle slice left after removing leading and
      trailing white space. */
  function TrimSpace(s: string): (r: string)
    ensures exists i, j :: 0 <= i <= j <= |s| && r == s[i..j]
                           && AllSat(s[..i], IsSpace) && AllSat(s[j..], IsSpace)
    ensures |r| > 0 ==> !IsSpace(r[0]) && !IsSpace(r[|r| - 1])
  {
    var i := Span(s, IsSpace);
    var t := s[i..];
    var k := SpanBack(t, IsSpace);
    var j := i + |t| - k;
    var r := t[..|t| - k];
    assert r == s[i..j];
    assert s[j..] == t[|t| - k..];
    assert |r| > 0 ==> r[0] == s[i] && r[|r| - 1] == t[|t| - k - 1];
    r
  }
}
